=== FILE: README.md ===
# Frame pacing of the buffered Direct3D 12 hello-triangle samples

The samples draw one triangle per frame into a swap chain with
`FRAME_COUNT = 2` back buffers. Each back buffer is a frame slot and owns a
command allocator. The CPU may reset that allocator only after the GPU has
finished the command list last recorded from it. A single `ID3D12Fence`
and one `fence_values` entry per slot enforce this:

- `wait_for_gpu` primes the protocol at bind time;
- `move_to_next_frame` gates every frame;
- `wait_for_gpu_idle` drains the GPU at teardown.

Around the protocol sit the following:

- the command recorder (`populate_command_list`, `transition_barrier`);
- the sample's lifecycle: unbound, or bound with its resources, through `bind_to_window`, `render` and `on_destroy`;
- two startup helpers: the `-warp` switch (`build_command_line`) and the hardware adapter search (`get_hardware_adapter`).

The model is a set of pure functions over immutable state.

- **Native calls become inputs.** Every native call that can fail is an
  `Option<Error>` in a per-operation environment record. The model
  therefore covers each error branch of the samples, including the partial
  updates left behind when a later call fails.
- **The GPU is a queue of signals.** The fence holds `completed` (what
  `GetCompletedValue` returns) and the values queued with `Signal` but
  not yet executed, oldest first. How many of them the GPU has executed
  when the CPU reads the fence is an input. Nothing forces the values to
  be queued in increasing order; `GpuFence.Ordered` says they were.
- **Blocking waits.** The event fires when the GPU executes a queued
  signal that reaches the target. A wait that no queued signal reaches is
  reported as `Deadlocked`; in the samples it would block forever.
- **Call log.** The queue, swap-chain and event calls of each operation
  are logged, so orderings can be stated.

The central invariant is `FramePacing.Paced`:

- the signals queued so far are in non-decreasing order;
- the current slot holds the strict maximum of the fence values;
- the last value signaled lies between the current slot's value minus one
  and that value.

Under it the model proves the following:

- no wait deadlocks;
- each slot's value strictly increases when the slot is reused;
- successive frames signal consecutive values;
- the safety property of the whole design (`Scheduler.ResetsAreSafe`):
  over any run of frames, every allocator reset happens only after the GPU
  has passed the value signaled right after that slot's previous
  submission.

This safety property is proved for runs whose frames succeed up to the last
one. The model also records two error paths where the samples lose the
protocol:

- **`SetEventOnCompletion` fails inside `move_to_next_frame`.** The frame
  index has already moved, and nothing was waited for.
  `FramePacing.MoveSetEventFailureLosesPacing` exhibits a reachable state
  where the invariant then fails. `FramePacing.LostPacingRunsFenceBackwards`
  shows the next frame from there: it queues a signal below one already
  queued, and the fence value later falls back.
- **Present fails after `ExecuteCommandLists`.** `Lifecycle.Render` logs the
  execute without a following signal. The next frame would then reset an
  allocator whose work was never fenced.

Where the samples disagree with their own comments, the model follows the code:

- `wait_for_gpu_idle` signals the maximum fence value itself, not the maximum plus one.
- The prime step signals the slot the swap chain reports as current, which need not be slot 0.
- `get_hardware_adapter` in the `?`-propagating variant can never reach its trailing E_FAIL.

Files:

- `native.dfy`: error values and HRESULT constants.
- `fence.dfy`: the GPU fence.
- `calls.dfy`: the call log.
- `commands.dfy`: barriers and the recorder.
- `frame_pacing.dfy`: the three fence operations.
- `lifecycle.dfy`: bind, render and destroy.
- `scheduler.dfy`: multi-frame runs.
- `command_line.dfy`: the `-warp` switch.
- `adapters.dfy`: the adapter search.

The trait defaults `DXSample`, 640 and 480 are the constants `CommandLine.DefaultTitle`,
`CommandLine.DefaultWidth` and `CommandLine.DefaultHeight`.

## Model

| member | source | states |
|---|---|---|
| Commands.TransitionBarrier | crates/windows-rs-sample-direct3d12-improved-v3/src/my_behaviour.rs:177-195 | The barrier is a whole-resource (all subresources) transition with no flags on the given resource; applied to a buffer in the before-state it yields the after-state, and applied in any other state it is rejected. |
| Commands.PopulateCommandList | crates/windows-rs-sample-direct3d12-improved-transparent/src/d3d12_hello_triangle_buffered/populate_command_list.rs:8-58 | Thirteen commands, opening with the current slot's allocator reset and the list reset against it and ending with Close; every barrier is a whole-resource transition on the current back buffer; every view bound is the current slot's view, and every clear is of that view with the sample's colour. |
| Commands.RecorderOpensAndCloses | crates/windows-rs-sample-direct3d12-improved-transparent/src/d3d12_hello_triangle_buffered/populate_command_list.rs:9-13 | The frame's list starts by resetting the current slot's allocator, then resets the list against that same allocator, and ends with Close; no other command resets an allocator or closes the list. |
| Commands.RecorderBracketsSingleDraw | crates/windows-rs-sample-direct3d12-improved-v3/src/my_behaviour.rs:106-133 | Exactly one Draw(3, 1, 0, 0) is recorded, after a triangle-list topology; it lies strictly between a PRESENT to RENDER_TARGET barrier and a RENDER_TARGET to PRESENT barrier on the current back buffer, and these are the only two barriers. |
| Commands.RecorderTargetsSlotView | crates/windows-rs-sample-direct3d12-improved/src/main.rs:616-628 | The one view bound and the one view cleared are both at heap start + frame_index * descriptor size, cleared to the sample's colour, bound before cleared. |
| Commands.RecorderReturnsToPresent | crates/windows-rs-sample-direct3d12-improved-transparent/src/d3d12_hello_triangle_buffered/populate_command_list.rs:23-57 | Replayed against its own back buffer starting in PRESENT, every barrier matches the buffer's real state, clear and draw happen in RENDER_TARGET, and the buffer ends in PRESENT. |
| Commands.RecorderRejectsWrongStartState | crates/windows-rs-sample-direct3d12-improved-transparent/src/d3d12_hello_triangle_buffered/populate_command_list.rs:23-28 | The same list replayed from RENDER_TARGET is rejected: the recorder depends on receiving the back buffer in PRESENT. |
| Commands.ClearAlphaFollowsSample | crates/windows-rs-sample-direct3d12-improved-transparent/src/d3d12_hello_triangle_buffered/populate_command_list.rs:38-43 | The frame clears its view, and every clear has alpha 1 exactly for the opaque colour of main.rs:625 and alpha 0 exactly for the transparent samples' colour. |
| GpuFence.Signal | crates/windows-rs-sample-direct3d12-improved-transparent/src/d3d12_hello_triangle_buffered/wait_for_gpu.rs:20-25 | Queues v behind everything already queued: the fence value is unchanged, the earlier queued values are kept in order, v becomes the last value signaled, and the queue is ordered afterwards iff it was ordered before and v is at least the previous last value. |
| GpuFence.Observe | crates/windows-rs-sample-direct3d12-improved-transparent/src/d3d12_hello_triangle_buffered/wait_for_gpu.rs:28 | The last value signaled is unchanged; the new completed value is the old one or one of the queued values; no progress changes nothing, and enough progress empties the queue and leaves the fence at the last value signaled; with ordered signals completed never decreases and never passes the last value signaled. |
| GpuFence.ObserveRunsOldestFirst | crates/windows-rs-sample-direct3d12-improved-transparent/src/d3d12_hello_triangle_buffered/wait_for_gpu.rs:28 | The definition of FIFO execution on the GPU, stated as the fact the rest of the model relies on: queued signals run oldest first; after k = min(progress, queue length) steps the first k are gone, the rest stay queued in order, and the fence holds the value of the k-th (or its old value when k = 0). |
| GpuFence.BlockUntil | crates/windows-rs-sample-direct3d12-improved-transparent/src/d3d12_hello_triangle_buffered/wait_for_gpu.rs:28-35 | The CPU blocks iff completed < target and arming the event succeeds; the call succeeds iff the target was already reached, or the event is armed and some queued signal reaches the target, and then completed >= target afterwards; it deadlocks iff it blocks and no queued signal reaches the target, which for ordered signals means the last value signaled is below the target; a SetEventOnCompletion failure is returned with the fence untouched. |
| FramePacing.WaitForGpu | crates/windows-rs-sample-direct3d12-improved/src/main.rs:514-543 | Signals the current slot's value v first, then waits only if the completed value read is below v; it never deadlocks, because v is the last value queued; on success completed >= v and exactly the current slot becomes v + 1; frame_index never changes; a failing Signal changes nothing and returns its error; otherwise the result is Ok exactly when SetEventOnCompletion succeeds or no wait was needed (completed already >= v), and any other error is SetEventOnCompletion's, as the `?` on each call gives; if v is no lower than the values already queued, completed never decreases; from a paced state it leaves the state paced. The duplicate in the transparent-v2 crate is identical. |
| FramePacing.MoveToNextFrame | crates/windows-rs-sample-direct3d12-improved-transparent/src/d3d12_hello_triangle_buffered/move_to_next_frame.rs:15-48 | Signals the old slot's value v, takes the new index exactly as the swap chain reports it, waits iff completed < the new slot's old value; on success completed >= that old value and only the new slot is set, to v + 1; the wait cannot deadlock when the new slot's value is at most v; a failing Signal changes nothing and returns its error; when Signal and SetEventOnCompletion both succeed and the new slot's value is at most v the result is Ok; when SetEventOnCompletion fails the result is Ok exactly when no wait was needed, and any other error is SetEventOnCompletion's; if v is no lower than the values already queued, completed never decreases; from a paced state the wait cannot deadlock, and success keeps the state paced with the new slot's value strictly increased. The copies in main.rs and the v3 crate are identical. |
| FramePacing.MaxOf | crates/windows-rs-sample-direct3d12-improved-transparent/src/d3d12_hello_triangle_buffered/wait_for_gpu_idle.rs:19 | The result bounds every fence value and is one of them, or is 0 for no values (the `unwrap_or(&0)`). |
| FramePacing.WaitForGpuIdle | crates/windows-rs-sample-direct3d12-improved-transparent/src/d3d12_hello_triangle_buffered/wait_for_gpu_idle.rs:16-38 | Signals the maximum fence value itself before any wait, never deadlocks; a failing Signal returns its error, otherwise the result is Ok exactly when SetEventOnCompletion succeeds or no wait was needed, and any other error is SetEventOnCompletion's; leaves fence_values and frame_index unchanged, and on success completed >= every slot's value; if the maximum is no lower than the values already queued, completed never decreases; from a paced state it stays paced. The duplicate in the transparent-v1-failing crate is identical. |
| FramePacing.OtherSlotsSignaled | crates/windows-rs-sample-direct3d12-improved-transparent/src/d3d12_hello_triangle_buffered/move_to_next_frame.rs:18-23 | Under the pacing invariant every slot other than the current one holds a value that has already been signaled. |
| FramePacing.DrainTargetIsCurrent | crates/windows-rs-sample-direct3d12-improved-transparent/src/d3d12_hello_triangle_buffered/wait_for_gpu_idle.rs:17-20 | Under the pacing invariant the drain target (the maximum) is the current slot's value. |
| FramePacing.PacedMoveSucceeds | crates/windows-rs-sample-direct3d12-improved-transparent/src/d3d12_hello_triangle_buffered/move_to_next_frame.rs:15-48 | From a paced state, moving to the next frame succeeds whenever Signal and SetEventOnCompletion do, whatever index the swap chain returns. |
| FramePacing.MoveWaitTargetSignaled | crates/windows-rs-sample-direct3d12-improved-transparent/src/d3d12_hello_triangle_buffered/move_to_next_frame.rs:32-38 | Whatever index the swap chain returns, the value waited for is at most the value just signaled. |
| FramePacing.DrainIdempotent | crates/windows-rs-sample-direct3d12-improved-transparent/src/d3d12_hello_triangle_buffered/wait_for_gpu_idle.rs:29 | When the queued signals are in order and none exceeds the largest slot value, a second drain after a successful one signals the same value, does not block, succeeds and changes no fence value. |
| FramePacing.MoveSetEventFailureLosesPacing | crates/windows-rs-sample-direct3d12-improved/src/main.rs:556-572 | There is a paced state from which a SetEventOnCompletion failure leaves frame_index moved to a slot whose previous work has not completed, with the state no longer paced. |
| FramePacing.LostPacingRunsFenceBackwards | crates/windows-rs-sample-direct3d12-improved/src/main.rs:546-577 | From that state the next frame signals 2 behind an already queued 3 and waits for 3. The wait ends, but the queue is out of order, and once the GPU runs the trailing signal the fence value falls from 3 back to 2. |
| Lifecycle.RtvTable | crates/windows-rs-sample-direct3d12-improved-v2/src/my_behaviour_bind.rs:90-102 | One view per back buffer, the view of buffer i at heap start + i * descriptor size. |
| Lifecycle.BindToWindow | crates/windows-rs-sample-direct3d12-improved-v2/src/my_behaviour_bind.rs:116-184 | Binding succeeds iff every setup call succeeds, the fence event is valid and the prime's Signal succeeds; an invalid event fails with the last Win32 error; a failed bind leaves the sample as it was; on success the sample is bound with frame_index from the swap chain, current slot 1 and every other slot 0, the fence signaled at 0, the state paced, views one increment apart, the event open and the list closed on the current slot's allocator. The transparent-v2 bind, which inlines the prime, and main.rs behave the same way. |
| Lifecycle.PrimeBindsFresh | crates/windows-rs-sample-direct3d12-improved-v2/src/my_behaviour_bind.rs:490-516 | The initial `wait_for_gpu` starts from a fence at 0 with every slot at 0, so it waits for a value already reached: it fails only when its Signal fails, logs at most Signal(0), and on success leaves the current slot at 1, every other slot at 0, the fence signaled with 0 and the pacing invariant in place. |
| Lifecycle.Populate | crates/windows-rs-sample-direct3d12-improved-transparent/src/d3d12_hello_triangle_buffered/populate_command_list.rs:8-58 | Fails iff the allocator reset, the list reset or the close fails, with the first failure's error; a failed reset leaves the list as it was; once both resets succeed the list holds exactly the frame's commands on the current slot's allocator, and it is closed iff Close succeeds. |
| Lifecycle.Render | crates/windows-rs-sample-direct3d12-improved/src/main.rs:468-487 | Unbound: Ok, nothing changes, no calls. Bound: a failure in populate, cast or Present leaves frame index, fence values and fence untouched; otherwise exactly one list (the frame's commands) is executed, then Present(1), then, when that Signal succeeds, the old slot's value is signaled and frame_index becomes the swap chain's index; after a successful Present the frame ends exactly as `move_to_next_frame` does; a paced sample never deadlocks, succeeds whenever no call of the frame fails, and stays paced after a successful frame. The transparent copy is identical; the v3 copy has no unbound case, and its bound path is identical. |
| Lifecycle.Submit | crates/windows-rs-sample-direct3d12-improved/src/main.rs:474-484 | Once the list is recorded and cast: the frame's list is executed once, then Present(1); a failed Present leaves the frame state untouched; otherwise, when that Signal succeeds, the current slot's value is signaled and the frame index becomes the swap chain's, and the frame ends exactly as `move_to_next_frame` does; from a paced state this never deadlocks, succeeds whenever none of the frame's calls fails, keeps the number of slots, never moves `completed` back, and stays paced on success. |
| Lifecycle.RecordedViewIsBoundView | crates/windows-rs-sample-direct3d12-improved-transparent/src/d3d12_hello_triangle_buffered/populate_command_list.rs:30-43 | The view the recorder binds and clears is the one bind wrote for the current back buffer. |
| Lifecycle.RtvOffsetsFitAndDiffer | crates/windows-rs-sample-direct3d12-improved/src/main.rs:359-366 | Justifies unbounded integers for the view offsets: with FRAME_COUNT = 2 the u32 product i * descriptor size computed by `bind_to_window` never wraps, and distinct back buffers get strictly increasing view addresses when the increment is positive. |
| Lifecycle.OnDestroy | crates/windows-rs-sample-direct3d12-improved-transparent/src/d3d12_hello_triangle_buffered/sample_on_destroy.rs:17-33 | Unbound: no drain, no close. Bound: the drain is `wait_for_gpu_idle`, its status is the one reported and it never deadlocks; its calls come first, and CloseHandle is the last call, made exactly when the event is valid, whatever the drain returned; the event ends up closed iff that call succeeds; a failed close is ignored and never panics; fence values are kept; a successful drain leaves completed >= every slot's value. |
| Lifecycle.CloseEvent | crates/windows-rs-sample-direct3d12-improved-transparent/src/d3d12_hello_triangle_buffered/sample_on_destroy.rs:24-29 | CloseHandle is called, as the last call, exactly when the event is valid; the event is closed iff that call succeeds; a failure panics exactly under `unwrap` (main.rs:497-503) and is ignored under `.ok()`; nothing but the event changes. |
| Lifecycle.OnDestroyCurrentSlot | crates/windows-rs-sample-direct3d12-improved/src/main.rs:490-504 | The drain is `wait_for_gpu` on the current slot, whose status is the one reported and which never deadlocks; CloseHandle follows it exactly when the event is valid; the call panics exactly when the event is valid and CloseHandle fails (the `unwrap`); from a paced state a successful drain still covers every slot, because the current slot holds the maximum. |
| Scheduler.FrameSignalsCurrent | crates/windows-rs-sample-direct3d12-improved-transparent/src/d3d12_hello_triangle_buffered/move_to_next_frame.rs:18-45 | In a successful frame the first signal carries the current slot's value v, and the slot the frame moves to then holds v + 1. |
| Scheduler.FrameKeepsTracking | crates/windows-rs-sample-direct3d12-improved/src/main.rs:546-580 | A successful frame preserves the relation between each slot's last-signaled retire value and the fence state that the safety proof relies on. |
| Scheduler.ResetsAreSafe | crates/windows-rs-sample-direct3d12-improved/src/main.rs:584-592 | Over any run of frames from a paced state, every allocator reset happens when the GPU has passed the value signaled after that slot's previous list. |
| Scheduler.SignalsAreConsecutive | crates/windows-rs-sample-direct3d12-improved-transparent/src/d3d12_hello_triangle_buffered/move_to_next_frame.rs:18-45 | Successive successful frames signal v, v + 1, v + 2, ... from the current slot's value v. |
| Scheduler.RunFrames | crates/windows-rs-sample-direct3d12-improved/src/main.rs:128-133 | Renders the frames in turn: an empty run does nothing, the first frame's calls come first, and a first frame that fails is the run's outcome; the run succeeds exactly when every frame signals (`Signals` has one entry per frame), and always when no native call fails. A run of frames from a paced state never deadlocks, keeps the slot count, never moves completed backwards, and leaves the state paced when it succeeds. |
| Scheduler.BindThenRun | crates/windows-rs-sample-direct3d12-improved-v2/src/my_behaviour_bind.rs:179-184 | After a successful bind, every reset of any later run is safe and the frames signal 1, 2, 3, ... in order. |
| CommandLine.ToAsciiLower | crates/windows-rs-sample-direct3d12-improved-transparent/src/dx_sample.rs:55 | ASCII capitals map to the matching lower-case letter; every other character is unchanged. |
| CommandLine.LowerAll | crates/windows-rs-sample-direct3d12-improved-transparent/src/dx_sample.rs:55 | Lowering keeps the length and lowers each character on its own. |
| CommandLine.BuildCommandLine | crates/windows-rs-sample-direct3d12-improved/src/main.rs:42-52 | use_warp_device is true iff some argument equals "-warp" or "/warp" ignoring ASCII case; false for the empty list. The transparent crate's copy in dx_sample.rs is identical. |
| CommandLine.MatchIsExact | crates/windows-rs-sample-direct3d12-improved-transparent/src/dx_sample.rs:55 | "warp", "-warpx" and "--warp" are not the switch; "-WaRp", "/WARP" and "-warp" are. |
| CommandLine.OrderDoesNotMatter | crates/windows-rs-sample-direct3d12-improved-transparent/src/dx_sample.rs:54-58 | Two argument lists with the same members give the same answer, whatever the order or repetition. |
| CommandLine.WarpFlagIsLoweredSpelling | crates/windows-rs-sample-direct3d12-improved-transparent/src/dx_sample.rs:55 | An argument is the switch iff its ASCII-lowered form is "-warp" or "/warp". |
| Adapters.SearchPropagating | crates/windows-rs-sample-direct3d12-improved/src/main.rs:221-249 | Selects an adapter iff some adapter is usable with every earlier one described and skipped, and then it is the first such; software adapters are never selected; every failure is either the enumeration's own error after the last adapter or a GetDesc1 error, so the trailing E_FAIL is never returned. The v3 copy is identical. |
| Adapters.SearchNotFound | crates/windows-rs-sample-direct3d12-improved-transparent/src/adapter_utils.rs:20-62 | A selected adapter is the first usable one; when every adapter is skipped, a NOT_FOUND end becomes a fresh NOT_FOUND error with its own message and any other end error is returned as is. The transparent-v2 copy differs only in logging. |
| Adapters.VariantsAgree | crates/windows-rs-sample-direct3d12-improved-transparent/src/adapter_utils.rs:25-29 | The two searches select the same adapter, fail with the same error code, and differ only in replacing the enumeration's end error. |

## Left out

- Window and UI plumbing are not modelled: window class registration, the window procedure, the message loop and window creation. They are OS plumbing around `render` and `on_destroy`.
- The DXGI info-queue dump, device and factory creation, the debug layer, shaders, the root signature, the pipeline state, vertex buffer contents and the viewport are not modelled. These are native calls or floating-point data without protocol behaviour. Their failures appear only as the `setupError` and `lateError` inputs of `Lifecycle.BindToWindow`.
- GPU concurrency, hangs and timeouts are not modelled. `WaitForSingleObjectEx(INFINITE)` becomes the postcondition `completed >= target`. A wait that could never end is reported as `Deadlocked` rather than as non-termination.
- The `MaybeUninit` helpers and the COM pointer copy inside `transition_barrier` are not modelled. A barrier names its back buffer by index.
- Fence values are unbounded: u64 overflow after 2^64 frames is not modelled.
- Scheduler.RunFrames: stops at the first failing frame, while the samples' message loop logs a render error and calls `render` again on the next idle turn; the frames after a failure are outside the pacing protocol (see the next line).
- Scheduler.ResetsAreSafe: the safety property is proved only up to and including the first failing frame. After a failed Present or a failed SetEventOnCompletion, the samples keep rendering in a state the protocol no longer covers; see `FramePacing.MoveSetEventFailureLosesPacing`.
- FramePacing.WaitForGpu, FramePacing.MoveToNextFrame and FramePacing.WaitForGpuIdle promise that `completed` never decreases only when the value they signal is no lower than every value already queued. A real fence takes each signal's value in queue order, so an out-of-order signal moves it backwards; `FramePacing.LostPacingRunsFenceBackwards` shows the samples doing that after an error. `GpuFence.BlockUntil` decides the wait from the fence as it stands when `GetCompletedValue` is read; with out-of-order signals `completed` could reach the target and fall back below it before `SetEventOnCompletion` is armed, where the samples would never wake but the model reports Ok.
- FramePacing.DrainIdempotent: stated only when the queued signals are in order and none exceeds the largest slot value. Otherwise a smaller signal queued after a larger one can pull the fence back below the target, and the second drain then blocks again.
- Adapters.SearchPropagating: the u32 enumeration index and its wrap-around after 2^32 adapters are not modelled. The adapter list is a finite sequence followed by the enumeration's end error.
- CommandLine.BuildCommandLine: arguments are sequences of Unicode characters rather than UTF-8 bytes. Byte-wise ASCII case folding gives the same answer on the encoded strings. Arguments that are not valid Unicode, which `std::env::args` would reject with a panic, are not modelled.
- The window titles and sizes of the individual samples are not modelled; only the trait defaults are kept. The v3 sample's hard-wired `use_warp_device = false` is not modelled either.
- The clear colour is a parameter of the recorder. It is either `Commands.OpaqueClear` (0, 0.2, 0.4, 1) or `Commands.TransparentClear` (all zero), held exactly as reals rather than as f32.

=== FILE: adapters.dfy ===
/** `get_hardware_adapter`: walk the factory's adapters by index and take
    the first that is not a software adapter and accepts a feature level
    11.0 device. Two variants exist: one that lets every enumeration error
    propagate, and one that treats DXGI_ERROR_NOT_FOUND as the end of the
    list. */
module Adapters {
  import opened Native

  /** What the search learns about one adapter: whether GetDesc1 fails,
      whether its description carries the SOFTWARE flag, and whether the
      feature level 11.0 device probe succeeds. */
  datatype Adapter = Adapter(descError: Option<Error>, software: bool, supportsFl11: bool)

  /** The factory's adapters in index order, and the error EnumAdapters1
      returns for the first index past them (DXGI_ERROR_NOT_FOUND on a
      healthy system). */
  datatype Factory = Factory(adapters: seq<Adapter>, end: Error)

  datatype Search = Selected(index: nat) | SearchFailed(error: Error)

  /** The message of the NOT_FOUND-terminated variant when nothing fits. */
  const NoAdapterMessage: string := "No suitable D3D12 hardware adapter found."

  predicate Suitable(a: Adapter)
  {
    a.descError.None? && !a.software && a.supportsFl11
  }

  /** An adapter the loop passes over: described, but software or
      rejected by the probe. */
  predicate Skipped(a: Adapter)
  {
    a.descError.None? && !Suitable(a)
  }

  predicate AllSkipped(f: Factory, from: nat, to: nat)
    requires from <= to <= |f.adapters|
  {
    forall j :: from <= j < to ==> Skipped(f.adapters[j])
  }

  /** The search of the first frame-buffered sample: EnumAdapters1 and
      GetDesc1 errors both leave through `?`, so running past the last
      adapter returns the enumeration error itself, and the E_FAIL error
      after the loop is never produced by the search: every failure is
      the enumeration's error or a GetDesc1 error. */
  function SearchPropagating(f: Factory, i: nat): (s: Search)
    requires i <= |f.adapters|
    ensures s.Selected? <==>
      exists k :: i <= k < |f.adapters| && Suitable(f.adapters[k]) && AllSkipped(f, i, k)
    ensures s.Selected? ==>
      i <= s.index < |f.adapters| && Suitable(f.adapters[s.index]) && AllSkipped(f, i, s.index)
    ensures s.SearchFailed? ==>
      || (s.error == f.end && AllSkipped(f, i, |f.adapters|))
      || (exists k :: i <= k < |f.adapters| && f.adapters[k].descError == Some(s.error) && AllSkipped(f, i, k))
    decreases |f.adapters| - i
  {
    if i == |f.adapters| then SearchFailed(f.end)
    else
      var a := f.adapters[i];
      if a.descError.Some? then SearchFailed(a.descError.value)
      else if a.software then SearchPropagating(f, i + 1)
      else if a.supportsFl11 then Selected(i)
      else SearchPropagating(f, i + 1)
  }

  /** The search of the transparent samples: a NOT_FOUND from EnumAdapters1
      ends the loop and becomes a fresh NOT_FOUND error with its own
      message; any other enumeration error, and any GetDesc1 error, is
      returned as is. */
  function SearchNotFound(f: Factory, i: nat): (s: Search)
    requires i <= |f.adapters|
    ensures s.Selected? ==>
      i <= s.index < |f.adapters| && Suitable(f.adapters[s.index]) && AllSkipped(f, i, s.index)
    ensures AllSkipped(f, i, |f.adapters|) ==>
      s == SearchFailed(if f.end.code == DxgiErrorNotFound then Error(DxgiErrorNotFound, NoAdapterMessage) else f.end)
    decreases |f.adapters| - i
  {
    if i == |f.adapters| then
      if f.end.code == DxgiErrorNotFound then SearchFailed(Error(DxgiErrorNotFound, NoAdapterMessage))
      else SearchFailed(f.end)
    else
      var a := f.adapters[i];
      if a.descError.Some? then SearchFailed(a.descError.value)
      else if a.software then SearchNotFound(f, i + 1)
      else if a.supportsFl11 then Selected(i)
      else SearchNotFound(f, i + 1)
  }

  /** The two variants agree on everything but the end of the list: they
      select the same adapter, fail with the same GetDesc1 error, and
      differ only in that the NOT_FOUND variant replaces the enumeration's
      NOT_FOUND error by its own, with the same code. */
  lemma {:induction false} VariantsAgree(f: Factory, i: nat)
    requires i <= |f.adapters|
    ensures SearchPropagating(f, i).Selected? <==> SearchNotFound(f, i).Selected?
    ensures SearchPropagating(f, i).Selected? ==> SearchPropagating(f, i) == SearchNotFound(f, i)
    ensures SearchPropagating(f, i).SearchFailed? ==>
      SearchNotFound(f, i).error.code == SearchPropagating(f, i).error.code
    ensures SearchPropagating(f, i).SearchFailed? && SearchPropagating(f, i).error != f.end ==>
      SearchNotFound(f, i) == SearchPropagating(f, i)
    decreases |f.adapters| - i
  {
    if i < |f.adapters| {
      var a := f.adapters[i];
      if a.descError.None? && !Suitable(a) {
        VariantsAgree(f, i + 1);
      }
    }
  }
}

=== FILE: calls.dfy ===
/** The calls a frame makes on the command queue, the swap chain and the
    fence event, in the order it makes them. Queries that change nothing
    (`GetCompletedValue`, `GetCurrentBackBufferIndex`) are not logged. */
module Calls {
  import Commands

  datatype Call =
    | ExecuteCall(commands: seq<Commands.Command>)  // ExecuteCommandLists with the one list
    | PresentCall(syncInterval: nat)                // IDXGISwapChain::Present
    | SignalCall(value: nat)                        // ID3D12CommandQueue::Signal
    | WaitCall(target: nat)                         // SetEventOnCompletion + WaitForSingleObjectEx
    | CloseEventCall                                // CloseHandle on the fence event

}

=== FILE: command_line.dfy ===
/** `build_command_line`: the only option the samples read is the WARP
    switch. Arguments are the whole process argument list, program name
    included, in order. */
module CommandLine {

  datatype SampleCommandLine = SampleCommandLine(useWarpDevice: bool)

  /** The defaults of the sample trait: window title and client size. */
  const DefaultTitle: string := "DXSample"
  const DefaultWidth: int := 640
  const DefaultHeight: int := 480

  /** `char::to_ascii_lowercase`: 'A'..'Z' map to 'a'..'z'; every other
      character is left alone. */
  function ToAsciiLower(c: char): (l: char)
    ensures 'A' <= c <= 'Z' ==> 'a' <= l <= 'z' && l as int - c as int == 32
    ensures !('A' <= c <= 'Z') ==> l == c
  {
    if 'A' <= c <= 'Z' then (c as int + 32) as char else c
  }

  /** `str::eq_ignore_ascii_case`: same length, and position by position
      the same character once ASCII letters are lowered. */
  predicate EqIgnoreAsciiCase(a: string, b: string)
  {
    |a| == |b| && forall i :: 0 <= i < |a| ==> ToAsciiLower(a[i]) == ToAsciiLower(b[i])
  }

  /** `str::to_ascii_lowercase`: every character lowered on its own. */
  function LowerAll(s: string): (l: string)
    ensures |l| == |s| && forall i :: 0 <= i < |s| ==> l[i] == ToAsciiLower(s[i])
  {
    if |s| == 0 then [] else [ToAsciiLower(s[0])] + LowerAll(s[1..])
  }

  /** An argument that selects the WARP software rasterizer. */
  predicate IsWarpFlag(arg: string)
  {
    EqIgnoreAsciiCase(arg, "-warp") || EqIgnoreAsciiCase(arg, "/warp")
  }

  /** Scan every argument, setting the switch on any match; a later
      non-matching argument never clears it. */
  method BuildCommandLine(args: seq<string>) returns (c: SampleCommandLine)
    ensures c.useWarpDevice <==> exists i :: 0 <= i < |args| && IsWarpFlag(args[i])
  {
    var useWarpDevice := false;
    var k := 0;
    while k < |args|
      invariant 0 <= k <= |args|
      invariant useWarpDevice <==> exists i :: 0 <= i < k && IsWarpFlag(args[i])
    {
      if IsWarpFlag(args[k]) {
        useWarpDevice := true;
      }
      k := k + 1;
    }
    c := SampleCommandLine(useWarpDevice);
  }

  /** The match is exact up to ASCII case: a prefix, an extension or a
      doubled dash is not the switch, while any casing of either spelling
      is. */
  lemma MatchIsExact()
    ensures !IsWarpFlag("warp") && !IsWarpFlag("-warpx") && !IsWarpFlag("--warp")
    ensures IsWarpFlag("-WaRp") && IsWarpFlag("/WARP") && IsWarpFlag("-warp")
  {
  }

  /** Only the set of arguments matters: reordering or repeating them does
      not change the result. */
  lemma OrderDoesNotMatter(args: seq<string>, other: seq<string>)
    requires forall a :: a in args <==> a in other
    ensures (exists i :: 0 <= i < |args| && IsWarpFlag(args[i])) <==>
            (exists j :: 0 <= j < |other| && IsWarpFlag(other[j]))
  {
    if exists i :: 0 <= i < |args| && IsWarpFlag(args[i]) {
      var i :| 0 <= i < |args| && IsWarpFlag(args[i]);
      assert args[i] in other;
    }
    if exists j :: 0 <= j < |other| && IsWarpFlag(other[j]) {
      var j :| 0 <= j < |other| && IsWarpFlag(other[j]);
      assert other[j] in args;
    }
  }

  /** The switch, stated the other way: an argument selects WARP exactly
      when lowering it gives "-warp" or "/warp". */
  lemma WarpFlagIsLoweredSpelling(arg: string)
    ensures IsWarpFlag(arg) <==> LowerAll(arg) == "-warp" || LowerAll(arg) == "/warp"
  {
  }
}

=== FILE: commands.dfy ===
/** The command recorder: resource-transition barriers and the fixed
    command sequence `populate_command_list` records for one frame. */
module Commands {
  import opened Native

  /** The two roles a swap-chain back buffer moves between
      (D3D12_RESOURCE_STATE_PRESENT and D3D12_RESOURCE_STATE_RENDER_TARGET). */
  datatype ResourceState = Present | RenderTarget

  datatype BarrierType = Transition
  datatype BarrierFlags = NoFlags

  /** D3D12_RESOURCE_BARRIER_ALL_SUBRESOURCES. */
  const AllSubresources: nat := 0xFFFF_FFFF

  /** A resource barrier. The COM pointer held by the Rust code is
      replaced by the index of the back buffer it designates. */
  datatype Barrier = Barrier(kind: BarrierType, flags: BarrierFlags, resource: nat,
                             subresource: nat, before: ResourceState, after: ResourceState)

  /** What a barrier does to a resource that is in state `current`: it is
      only valid when its before-state is the current one. */
  function ApplyBarrier(b: Barrier, current: ResourceState): Option<ResourceState>
  {
    if b.before == current then Some(b.after) else None
  }

  /** `transition_barrier`: a whole-resource transition between two states. */
  function TransitionBarrier(resource: nat, before: ResourceState, after: ResourceState): (b: Barrier)
    ensures b.resource == resource && b.subresource == AllSubresources
    ensures b.kind == Transition && b.flags == NoFlags
    ensures ApplyBarrier(b, before) == Some(after)
    ensures forall s :: s != before ==> ApplyBarrier(b, s) == None
  {
    Barrier(Transition, NoFlags, resource, AllSubresources, before, after)
  }

  /** A clear colour, RGBA. The samples use f32; the constants are kept
      exactly. */
  datatype Rgba = Rgba(r: real, g: real, b: real, a: real)

  /** The opaque samples clear to (0, 0.2, 0.4, 1). */
  const OpaqueClear := Rgba(0.0, 0.2, 0.4, 1.0)

  /** The premultiplied-alpha samples clear to fully transparent black. */
  const TransparentClear := Rgba(0.0, 0.0, 0.0, 0.0)

  datatype Topology = TriangleList

  /** One call the recorder makes on the allocator or the command list. */
  datatype Command =
    | ResetAllocator(slot: nat)
    | ResetList(allocator: nat)
    | SetRootSignature
    | SetViewport
    | SetScissorRect
    | ResourceBarrier(barrier: Barrier)
    | SetRenderTarget(rtv: nat)
    | ClearRenderTarget(rtv: nat, color: Rgba)
    | SetTopology(topology: Topology)
    | SetVertexBuffer(inputSlot: nat)
    | Draw(vertexCount: nat, instanceCount: nat, startVertex: nat, startInstance: nat)
    | Close

  /** The CPU address of the render-target view of back buffer `i`:
      heap start plus `i` descriptor increments. */
  function RtvAddress(heapStart: nat, i: nat, descriptorSize: nat): nat
  {
    heapStart + i * descriptorSize
  }

  /** `populate_command_list` for the slot `frameIndex`: reset that slot's
      allocator, reset the list against it, set state, move the back buffer
      to RENDER_TARGET, bind and clear its view, draw the triangle, move it
      back to PRESENT, close. `clear` is `OpaqueClear` or `TransparentClear`
      depending on the sample. Everything that designates a back buffer
      designates the current slot's: both barriers are on it, and the one
      view bound and cleared is its view. */
  function PopulateCommandList(frameIndex: nat, heapStart: nat, descriptorSize: nat, clear: Rgba): (cmds: seq<Command>)
    ensures |cmds| == 13
    ensures cmds[0] == ResetAllocator(frameIndex) && cmds[1] == ResetList(frameIndex) && cmds[12] == Close
    ensures forall k :: 0 <= k < |cmds| && cmds[k].ResourceBarrier? ==>
      cmds[k].barrier.resource == frameIndex && cmds[k].barrier.subresource == AllSubresources
    ensures forall k :: 0 <= k < |cmds| && cmds[k].SetRenderTarget? ==>
      cmds[k].rtv == RtvAddress(heapStart, frameIndex, descriptorSize)
    ensures forall k :: 0 <= k < |cmds| && cmds[k].ClearRenderTarget? ==>
      cmds[k] == ClearRenderTarget(RtvAddress(heapStart, frameIndex, descriptorSize), clear)
  {
    var rtv := RtvAddress(heapStart, frameIndex, descriptorSize);
    [ ResetAllocator(frameIndex),
      ResetList(frameIndex),
      SetRootSignature,
      SetViewport,
      SetScissorRect,
      ResourceBarrier(TransitionBarrier(frameIndex, Present, RenderTarget)),
      SetRenderTarget(rtv),
      ClearRenderTarget(rtv, clear),
      SetTopology(TriangleList),
      SetVertexBuffer(0),
      Draw(3, 1, 0, 0),
      ResourceBarrier(TransitionBarrier(frameIndex, RenderTarget, Present)),
      Close ]
  }

  /** Replays a command sequence against the state of back buffer
      `target`, checking every barrier on it against the state it is really
      in, and that clears and draws happen only while it is a render target.
      None means the sequence misuses the resource. */
  function Replay(cmds: seq<Command>, target: nat, state: ResourceState): Option<ResourceState>
    decreases |cmds|
  {
    if |cmds| == 0 then Some(state)
    else
      var c := cmds[0];
      if c.ResourceBarrier? && c.barrier.resource == target then
        match ApplyBarrier(c.barrier, state)
        case None => None
        case Some(next) => Replay(cmds[1..], target, next)
      else if (c.ClearRenderTarget? || c.Draw?) && state != RenderTarget then None
      else Replay(cmds[1..], target, state)
  }

  /** The recorder's sequence starts by resetting the current slot's
      allocator, then resets the list against that same allocator, and ends
      with Close; no other command resets an allocator or closes the list. */
  lemma RecorderOpensAndCloses(frameIndex: nat, heapStart: nat, descriptorSize: nat, clear: Rgba,
                               cmds: seq<Command>)
    requires cmds == PopulateCommandList(frameIndex, heapStart, descriptorSize, clear)
    ensures |cmds| == 13
    ensures cmds[0] == ResetAllocator(frameIndex) && cmds[1] == ResetList(frameIndex)
    ensures cmds[|cmds| - 1] == Close
    ensures forall k :: 0 < k < |cmds| ==> !cmds[k].ResetAllocator?
    ensures forall k :: 0 <= k < |cmds| - 1 ==> !cmds[k].Close?
  {
  }

  /** Exactly one draw is recorded, of 3 vertices and 1 instance with
      triangle-list topology, and it lies strictly between a
      PRESENT -> RENDER_TARGET barrier and a RENDER_TARGET -> PRESENT
      barrier on the current back buffer; these are the only barriers. */
  lemma RecorderBracketsSingleDraw(frameIndex: nat, heapStart: nat, descriptorSize: nat, clear: Rgba,
                                   cmds: seq<Command>)
    returns (toTarget: nat, draw: nat, toPresent: nat)
    requires cmds == PopulateCommandList(frameIndex, heapStart, descriptorSize, clear)
    ensures toTarget < draw < toPresent < |cmds|
    ensures cmds[toTarget] == ResourceBarrier(TransitionBarrier(frameIndex, Present, RenderTarget))
    ensures cmds[draw] == Draw(3, 1, 0, 0)
    ensures cmds[toPresent] == ResourceBarrier(TransitionBarrier(frameIndex, RenderTarget, Present))
    ensures exists k :: toTarget < k < draw && cmds[k] == SetTopology(TriangleList)
    ensures forall k :: 0 <= k < |cmds| && cmds[k].SetTopology? ==> cmds[k].topology == TriangleList
    ensures forall k :: 0 <= k < |cmds| && cmds[k].Draw? ==> k == draw
    ensures forall k :: 0 <= k < |cmds| && cmds[k].ResourceBarrier? ==> k == toTarget || k == toPresent
  {
    toTarget, draw, toPresent := 5, 10, 11;
    forall k | 0 <= k < |cmds|
      ensures cmds[k].Draw? ==> k == 10
      ensures cmds[k].ResourceBarrier? ==> k == 5 || k == 11
      ensures cmds[k].SetTopology? ==> cmds[k].topology == TriangleList
    {
      assert k in {0,1,2,3,4,5,6,7,8,9,10,11,12};
    }
    assert cmds[8] == SetTopology(TriangleList);
  }

  /** The view the recorder binds, and the one it clears, is the current
      slot's: heap start plus `frameIndex` descriptor increments, cleared to
      the sample's colour; it is bound before it is cleared. */
  lemma RecorderTargetsSlotView(frameIndex: nat, heapStart: nat, descriptorSize: nat, clear: Rgba,
                                cmds: seq<Command>)
    returns (bind: nat, clearAt: nat)
    requires cmds == PopulateCommandList(frameIndex, heapStart, descriptorSize, clear)
    ensures bind < clearAt < |cmds|
    ensures cmds[bind] == SetRenderTarget(heapStart + frameIndex * descriptorSize)
    ensures cmds[clearAt] == ClearRenderTarget(heapStart + frameIndex * descriptorSize, clear)
    ensures forall k :: 0 <= k < |cmds| && cmds[k].SetRenderTarget? ==> k == bind
    ensures forall k :: 0 <= k < |cmds| && cmds[k].ClearRenderTarget? ==> k == clearAt
  {
    bind, clearAt := 6, 7;
    forall k | 0 <= k < |cmds|
      ensures cmds[k].SetRenderTarget? ==> k == 6
      ensures cmds[k].ClearRenderTarget? ==> k == 7
    {
      assert k in {0,1,2,3,4,5,6,7,8,9,10,11,12};
    }
  }

  /** A command that leaves back buffer `target` alone while it is in
      state `state`: not a barrier on it, and not a clear or draw unless it
      is a render target. */
  predicate Inert(c: Command, target: nat, state: ResourceState)
  {
    && !(c.ResourceBarrier? && c.barrier.resource == target)
    && ((c.ClearRenderTarget? || c.Draw?) ==> state == RenderTarget)
  }

  /** Replay passes over a run of inert commands without changing the
      buffer's state. */
  lemma {:induction false} ReplaySkipsInert(a: seq<Command>, b: seq<Command>, target: nat, state: ResourceState)
    requires forall k :: 0 <= k < |a| ==> Inert(a[k], target, state)
    ensures Replay(a + b, target, state) == Replay(b, target, state)
    decreases |a|
  {
    if |a| > 0 {
      assert (a + b)[0] == a[0] && (a + b)[1..] == a[1..] + b;
      ReplaySkipsInert(a[1..], b, target, state);
    } else {
      assert a + b == b;
    }
  }

  /** Replaying a frame's commands against its own back buffer, starting
      in PRESENT: every barrier's before-state is the state the buffer is
      really in, the clear and the draw happen while it is a render target,
      and it ends in PRESENT again, ready for the swap chain. */
  lemma RecorderReturnsToPresent(frameIndex: nat, heapStart: nat, descriptorSize: nat, clear: Rgba,
                                 cmds: seq<Command>)
    requires cmds == PopulateCommandList(frameIndex, heapStart, descriptorSize, clear)
    ensures Replay(cmds, frameIndex, Present) == Some(Present)
  {
    var t := frameIndex;
    var setup, draw, tail := cmds[..5], cmds[6..11], cmds[11..];
    var rest := [cmds[5]] + (draw + tail);
    assert cmds == setup + rest;
    ReplaySkipsInert(setup, rest, t, Present);
    assert rest[1..] == draw + tail;
    assert Replay(rest, t, Present) == Replay(draw + tail, t, RenderTarget);
    ReplaySkipsInert(draw, tail, t, RenderTarget);
    assert tail[1..] == [Close];
    assert Replay(tail, t, RenderTarget) == Replay([Close], t, Present);
  }

  /** The same commands replayed from RENDER_TARGET are rejected at the
      first barrier: the recorder relies on the back buffer being handed
      over in PRESENT, which the swap chain guarantees. */
  lemma RecorderRejectsWrongStartState(frameIndex: nat, heapStart: nat, descriptorSize: nat, clear: Rgba,
                                       cmds: seq<Command>)
    requires cmds == PopulateCommandList(frameIndex, heapStart, descriptorSize, clear)
    ensures Replay(cmds, frameIndex, RenderTarget) == None
  {
    var rest := cmds[5..];
    assert cmds == cmds[..5] + rest;
    ReplaySkipsInert(cmds[..5], rest, frameIndex, RenderTarget);
    assert rest[0] == ResourceBarrier(TransitionBarrier(frameIndex, Present, RenderTarget));
  }

  /** The recorded clear is the sample's colour, so the opaque samples
      clear every pixel to full coverage and the premultiplied-alpha
      samples clear it to no coverage at all, which is what lets the
      desktop show through around the triangle. */
  lemma ClearAlphaFollowsSample(frameIndex: nat, heapStart: nat, descriptorSize: nat, clear: Rgba,
                                cmds: seq<Command>)
    requires cmds == PopulateCommandList(frameIndex, heapStart, descriptorSize, clear)
    requires clear == OpaqueClear || clear == TransparentClear
    ensures exists k :: 0 <= k < |cmds| && cmds[k].ClearRenderTarget?
    ensures forall k :: 0 <= k < |cmds| && cmds[k].ClearRenderTarget? ==>
      && (cmds[k].color.a == 1.0 <==> clear == OpaqueClear)
      && (cmds[k].color.a == 0.0 <==> clear == TransparentClear)
  {
    assert cmds[7].ClearRenderTarget?;
  }
}

=== FILE: fence.dfy ===
/** The GPU fence and the command queue's pending signals. The fence holds
    the value of the last `Signal` the GPU has executed; the signals still
    queued behind the submitted work are kept in order. How far the GPU
    has got is an input. Nothing forces signals to be queued in increasing
    order: the samples do so while the pacing protocol holds, and the
    model shows what happens when they do not. */
module GpuFence {
  import opened Native

  /** `completed` is what `GetCompletedValue` returns; `pending` are the
      values of the signals queued but not yet executed, oldest first. */
  datatype Fence = Fence(completed: nat, pending: seq<nat>)

  /** The last of `p`, or `lo` when `p` is empty. */
  function LastOr(lo: nat, p: seq<nat>): nat
  {
    if |p| == 0 then lo else p[|p| - 1]
  }

  /** The value of the most recently queued signal; when nothing is
      pending, the value the fence holds. */
  function Signaled(f: Fence): nat
  {
    LastOr(f.completed, f.pending)
  }

  /** `p` is non-decreasing and starts at or above `lo`. */
  predicate OrderedFrom(lo: nat, p: seq<nat>)
    decreases |p|
  {
    |p| == 0 || (lo <= p[0] && OrderedFrom(p[0], p[1..]))
  }

  /** Signals were queued in non-decreasing order and the fence has not
      passed any of them: the fence then only ever moves forward. */
  predicate Ordered(f: Fence)
  {
    OrderedFrom(f.completed, f.pending)
  }

  /** `OrderedFrom` is the pairwise reading: every element is at least
      `lo`, and every element is at most each later one. */
  lemma {:induction false} OrderedFromMeans(lo: nat, p: seq<nat>)
    ensures OrderedFrom(lo, p) <==>
      && (forall i :: 0 <= i < |p| ==> lo <= p[i])
      && (forall i, j :: 0 <= i < j < |p| ==> p[i] <= p[j])
    decreases |p|
  {
    if |p| > 0 {
      OrderedFromMeans(p[0], p[1..]);
      if OrderedFrom(lo, p) {
        forall i, j | 0 <= i < j < |p| ensures p[i] <= p[j] {
          if i > 0 { assert p[i] == p[1..][i - 1] && p[j] == p[1..][j - 1]; }
          else { assert p[j] == p[1..][j - 1]; }
        }
        forall i | 0 <= i < |p| ensures lo <= p[i] {
          if i > 0 { assert p[i] == p[1..][i - 1]; }
        }
      }
      if (forall i, j :: 0 <= i < j < |p| ==> p[i] <= p[j]) && lo <= p[0] {
        forall i | 0 <= i < |p[1..]| ensures p[0] <= p[1..][i] { assert p[1..][i] == p[i + 1]; }
        forall i, j | 0 <= i < j < |p[1..]| ensures p[1..][i] <= p[1..][j] {
          assert p[1..][i] == p[i + 1] && p[1..][j] == p[j + 1];
        }
      }
    }
  }

  /** Appending `v` keeps `p` ordered exactly when `v` is at least its last
      element. */
  lemma {:induction false} OrderedAppend(lo: nat, p: seq<nat>, v: nat)
    ensures OrderedFrom(lo, p + [v]) <==> OrderedFrom(lo, p) && LastOr(lo, p) <= v
    decreases |p|
  {
    if |p| > 0 {
      assert (p + [v])[0] == p[0] && (p + [v])[1..] == p[1..] + [v];
      OrderedAppend(p[0], p[1..], v);
    } else {
      assert (p + [v])[1..] == [];
    }
  }

  /** In an ordered `p`, the element before position `k` lies between
      `lo` and the last element, and what follows it is ordered from it. */
  lemma {:induction false} OrderedSuffix(lo: nat, p: seq<nat>, k: nat)
    ensures OrderedFrom(lo, p) && 0 < k <= |p| ==>
      && OrderedFrom(p[k - 1], p[k..])
      && lo <= p[k - 1] <= LastOr(lo, p)
    decreases |p|
  {
    if OrderedFrom(lo, p) && 0 < k <= |p| {
      if k == 1 {
        assert p[1..] == p[k..];
        if |p| > 1 { OrderedSuffix(p[0], p[1..], |p| - 1); }
      } else {
        OrderedSuffix(p[0], p[1..], k - 1);
        assert p[1..][k - 2] == p[k - 1] && p[1..][k - 1..] == p[k..];
        assert LastOr(p[0], p[1..]) == LastOr(lo, p);
      }
    }
  }

  /** `ID3D12CommandQueue::Signal(fence, v)`: queue a write of `v` behind
      the work already submitted. The queue stays ordered exactly when `v`
      is at least the last value queued. */
  function Signal(f: Fence, v: nat): (g: Fence)
    ensures g.completed == f.completed && Signaled(g) == v
    ensures |g.pending| == |f.pending| + 1 && g.pending[..|f.pending|] == f.pending
    ensures Ordered(g) <==> Ordered(f) && Signaled(f) <= v
  {
    var g := Fence(f.completed, f.pending + [v]);
    assert g.pending[..|f.pending|] == f.pending;
    OrderedAppend(f.completed, f.pending, v);
    g
  }

  /** The fence after the GPU has executed `progress` more of the pending
      signals (all of them if fewer are pending). */
  function Observe(f: Fence, progress: nat): (g: Fence)
    ensures Signaled(g) == Signaled(f)
    ensures g.completed == f.completed || g.completed in f.pending
    ensures progress == 0 ==> g == f
    ensures progress >= |f.pending| ==> g.pending == [] && g.completed == Signaled(f)
    ensures Ordered(f) ==> Ordered(g) && f.completed <= g.completed <= Signaled(f)
  {
    var k := if progress < |f.pending| then progress else |f.pending|;
    OrderedSuffix(f.completed, f.pending, k);
    OrderedSuffix(f.completed, f.pending, |f.pending|);
    if k == 0 then f else Fence(f.pending[k - 1], f.pending[k..])
  }

  /** The GPU executes the oldest pending signals first: after `progress`
      steps (capped at the queue's length) the first k signals are gone,
      the fence holds the k-th one's value and the rest wait in order. */
  lemma ObserveRunsOldestFirst(f: Fence, progress: nat)
    ensures var k := if progress < |f.pending| then progress else |f.pending|;
      && Observe(f, progress).pending == f.pending[k..]
      && Observe(f, progress).completed == (if k == 0 then f.completed else f.pending[k - 1])
  {
  }

  /** The index of the first pending signal whose value reaches `target`,
      or `|pending|` if none does. */
  function FirstReaching(pending: seq<nat>, target: nat): (j: nat)
    ensures j <= |pending|
    ensures j < |pending| ==> target <= pending[j]
    ensures forall i :: 0 <= i < j ==> pending[i] < target
    decreases |pending|
  {
    if |pending| == 0 then 0
    else if target <= pending[0] then 0
    else 1 + FirstReaching(pending[1..], target)
  }

  /** How a blocking wait ended, and whether the CPU actually waited. */
  datatype Wait = Wait(fence: Fence, status: Status, waited: bool)

  /** `if GetCompletedValue() < target { SetEventOnCompletion(target, event)?;
      WaitForSingleObjectEx(event, INFINITE) }`. The event fires when the
      GPU executes a signal of at least `target`. If no pending signal
      reaches it the event never fires and the CPU is stuck.
      `setEventError` is the failure of `SetEventOnCompletion`, if any. */
  function BlockUntil(f: Fence, target: nat, setEventError: Option<Error>): (w: Wait)
    ensures Signaled(w.fence) == Signaled(f)
    ensures w.waited <==> f.completed < target && setEventError.None?
    ensures w.status == Ok <==>
      target <= f.completed || (setEventError.None? && exists i :: 0 <= i < |f.pending| && target <= f.pending[i])
    ensures w.status == Ok ==> target <= w.fence.completed
    ensures w.status == Deadlocked <==>
      w.waited && forall i :: 0 <= i < |f.pending| ==> f.pending[i] < target
    ensures Ordered(f) ==> (w.status == Deadlocked <==> w.waited && Signaled(f) < target)
    ensures Ordered(f) ==> Ordered(w.fence) && f.completed <= w.fence.completed
    ensures w.status.Failed? ==> setEventError == Some(w.status.error) && w.fence == f
    ensures !w.waited ==> w.fence == f
  {
    if target <= f.completed then Wait(f, Ok, false)
    else if setEventError.Some? then Wait(f, Failed(setEventError.value), false)
    else
      var j := FirstReaching(f.pending, target);
      OrderedSuffix(f.completed, f.pending, j + 1);
      OrderedSuffix(f.completed, f.pending, |f.pending|);
      if j == |f.pending| then Wait(f, Deadlocked, true)
      else Wait(Fence(f.pending[j], f.pending[j + 1..]), Ok, true)
  }
}

=== FILE: frame_pacing.dfy ===
/** The CPU side of frame pacing: per-slot fence values, the current slot
    (the swap chain's back-buffer index), and the three operations that
    signal and wait on the fence. Any number N >= 1 of slots is allowed;
    every sample uses FRAME_COUNT = 2. */
module FramePacing {
  import opened Native
  import opened Calls
  import GpuFence

  /** The fence-related part of `Resources`: `frame_index`, `fence_values`
      and the fence. */
  datatype FrameSync = FrameSync(frameIndex: nat, fenceValues: seq<nat>, fence: GpuFence.Fence)

  predicate Valid(s: FrameSync)
  {
    && 1 <= |s.fenceValues|
    && s.frameIndex < |s.fenceValues|
  }

  /** The current slot holds a value strictly above every other slot's. */
  predicate CurrentHoldsMax(s: FrameSync)
    requires s.frameIndex < |s.fenceValues|
  {
    forall i :: 0 <= i < |s.fenceValues| && i != s.frameIndex ==> s.fenceValues[i] < s.fenceValues[s.frameIndex]
  }

  /** The pacing invariant: the signals queued so far are in order, the
      current slot holds the maximum, and that maximum is the last value
      signaled or the one right after it (the value the work now being
      recorded will be signaled with). */
  predicate Paced(s: FrameSync)
  {
    && Valid(s)
    && CurrentHoldsMax(s)
    && GpuFence.Ordered(s.fence)
    && GpuFence.Signaled(s.fence) <= s.fenceValues[s.frameIndex] <= GpuFence.Signaled(s.fence) + 1
  }

  /** Signaling `v` next keeps the queued signals in order. */
  predicate SignalsInOrder(s: FrameSync, v: nat)
  {
    GpuFence.Ordered(s.fence) && GpuFence.Signaled(s.fence) <= v
  }

  /** Outcomes of the native calls of `wait_for_gpu` / `wait_for_gpu_idle`:
      whether `Signal` fails, how many queued signals the GPU has executed
      by the time `GetCompletedValue` is read, whether
      `SetEventOnCompletion` fails. */
  datatype WaitEnv = WaitEnv(signalError: Option<Error>, progress: nat, setEventError: Option<Error>)

  /** The same for `move_to_next_frame`, plus the back-buffer index the
      swap chain reports after the present. */
  datatype MoveEnv = MoveEnv(signalError: Option<Error>, nextIndex: nat, progress: nat,
                             setEventError: Option<Error>)

  /** The state left behind (the Rust code mutates in place, so an error can
      leave a partial update), how the call ended, and the calls made. */
  datatype Outcome = Outcome(sync: FrameSync, status: Status, calls: seq<Call>)

  function WaitLog(target: nat, w: GpuFence.Wait): seq<Call>
  {
    if w.waited then [WaitCall(target)] else []
  }

  /** What `GetCompletedValue` returns right after `Signal(v)`. */
  function SeenAfterSignal(f: GpuFence.Fence, v: nat, progress: nat): nat
  {
    GpuFence.Observe(GpuFence.Signal(f, v), progress).completed
  }

  /** The calls of one signal-then-maybe-wait step: the CPU blocks exactly
      when the value it reads is below the target (and arming the event
      succeeded). */
  function SignalThenWait(v: nat, target: nat, seen: nat, setEventError: Option<Error>): seq<Call>
  {
    [SignalCall(v)] + (if seen < target && setEventError.None? then [WaitCall(target)] else [])
  }

  /** `wait_for_gpu`, also the initial prime of `bind_to_window`: signal
      the current slot's value, wait for the GPU to reach it, then
      increment that slot. The value waited for is the one just queued, so
      this wait always ends. */
  function WaitForGpu(s: FrameSync, env: WaitEnv): (o: Outcome)
    requires Valid(s)
    ensures o.sync.frameIndex == s.frameIndex
    ensures o.status != Deadlocked
    ensures env.signalError.Some? ==> o == Outcome(s, Failed(env.signalError.value), [])
    ensures env.signalError.None? ==>
      && GpuFence.Signaled(o.sync.fence) == s.fenceValues[s.frameIndex]
      && o.calls == SignalThenWait(s.fenceValues[s.frameIndex], s.fenceValues[s.frameIndex],
                                   SeenAfterSignal(s.fence, s.fenceValues[s.frameIndex], env.progress),
                                   env.setEventError)
    ensures o.status == Ok ==>
      && s.fenceValues[s.frameIndex] <= o.sync.fence.completed
      && o.sync.fenceValues == s.fenceValues[s.frameIndex := s.fenceValues[s.frameIndex] + 1]
    ensures o.status != Ok ==> o.sync.fenceValues == s.fenceValues
    ensures o.status == Ok <==>
      env.signalError.None? &&
      (env.setEventError.None? ||
       s.fenceValues[s.frameIndex] <= SeenAfterSignal(s.fence, s.fenceValues[s.frameIndex], env.progress))
    ensures env.signalError.None? && o.status.Failed? ==> env.setEventError == Some(o.status.error)
    ensures SignalsInOrder(s, s.fenceValues[s.frameIndex]) ==>
      GpuFence.Ordered(o.sync.fence) && s.fence.completed <= o.sync.fence.completed
    ensures Paced(s) ==> Paced(o.sync) && GpuFence.Signaled(s.fence) <= GpuFence.Signaled(o.sync.fence)
  {
    var v := s.fenceValues[s.frameIndex];
    if env.signalError.Some? then Outcome(s, Failed(env.signalError.value), [])
    else
      var seen := GpuFence.Observe(GpuFence.Signal(s.fence, v), env.progress);
      SignalThenBlock(s.fence, v, env.progress, v, env.setEventError);
      var w := GpuFence.BlockUntil(seen, v, env.setEventError);
      PacedWithFence(s, w.fence);
      PacedAfterRenew(s, w.fence, s.frameIndex);
      var calls := [SignalCall(v)] + WaitLog(v, w);
      if w.status != Ok then Outcome(s.(fence := w.fence), w.status, calls)
      else Outcome(s.(fence := w.fence, fenceValues := s.fenceValues[s.frameIndex := v + 1]), Ok, calls)
  }

  /** One signal-then-wait step on the fence: the wait ends whenever its
      target is no larger than the value just queued, and a queue that
      stays ordered only moves forward. */
  lemma SignalThenBlock(f: GpuFence.Fence, v: nat, progress: nat, target: nat, setEventError: Option<Error>)
    ensures var w := GpuFence.BlockUntil(GpuFence.Observe(GpuFence.Signal(f, v), progress), target, setEventError);
            && GpuFence.Signaled(w.fence) == v
            && (target <= v ==> w.status != Deadlocked)
            && (target <= v ==>
                  (w.status == Ok <==> setEventError.None? || target <= GpuFence.Observe(GpuFence.Signal(f, v), progress).completed))
            && (setEventError.Some? ==> (w.status == Ok <==> target <= GpuFence.Observe(GpuFence.Signal(f, v), progress).completed))
            && (w.status.Failed? ==> setEventError == Some(w.status.error))
            && (GpuFence.Ordered(f) && GpuFence.Signaled(f) <= v ==>
                  GpuFence.Ordered(w.fence) && f.completed <= w.fence.completed)
  {
    var seen := GpuFence.Observe(GpuFence.Signal(f, v), progress);
    if target <= v && seen.completed < target {
      assert target <= seen.pending[|seen.pending| - 1];
    }
  }

  /** Replacing the fence by one that is still ordered and whose last
      queued value is the current slot's keeps the pacing invariant. */
  lemma PacedWithFence(s: FrameSync, fence: GpuFence.Fence)
    ensures Paced(s) && GpuFence.Ordered(fence) && GpuFence.Signaled(fence) == s.fenceValues[s.frameIndex] ==>
      Paced(s.(fence := fence))
  {
  }

  /** Moving to slot `next` and renewing it with one more than the value
      just queued keeps the pacing invariant. */
  lemma PacedAfterRenew(s: FrameSync, fence: GpuFence.Fence, next: nat)
    ensures Paced(s) && next < |s.fenceValues| && GpuFence.Ordered(fence)
            && GpuFence.Signaled(fence) == s.fenceValues[s.frameIndex] ==>
      Paced(FrameSync(next, s.fenceValues[next := s.fenceValues[s.frameIndex] + 1], fence))
  {
  }

  /** `move_to_next_frame`: signal the current slot's value v, take the
      next slot from the swap chain, wait until the GPU has finished that
      slot's previous work (its stored value), and give it the value v + 1
      its next frame will be signaled with. */
  function MoveToNextFrame(s: FrameSync, env: MoveEnv): (o: Outcome)
    requires Valid(s) && env.nextIndex < |s.fenceValues|
    ensures env.signalError.Some? ==> o == Outcome(s, Failed(env.signalError.value), [])
    ensures env.signalError.None? ==>
      && o.sync.frameIndex == env.nextIndex
      && GpuFence.Signaled(o.sync.fence) == s.fenceValues[s.frameIndex]
      && o.calls == SignalThenWait(s.fenceValues[s.frameIndex], s.fenceValues[env.nextIndex],
                                   SeenAfterSignal(s.fence, s.fenceValues[s.frameIndex], env.progress),
                                   env.setEventError)
    ensures o.status == Ok ==>
      && s.fenceValues[env.nextIndex] <= o.sync.fence.completed
      && o.sync.fenceValues == s.fenceValues[env.nextIndex := s.fenceValues[s.frameIndex] + 1]
    ensures o.status != Ok ==> o.sync.fenceValues == s.fenceValues
    ensures s.fenceValues[env.nextIndex] <= s.fenceValues[s.frameIndex] ==> o.status != Deadlocked
    ensures env.signalError.None? && env.setEventError.None? && s.fenceValues[env.nextIndex] <= s.fenceValues[s.frameIndex] ==>
      o.status == Ok
    ensures env.signalError.None? && env.setEventError.Some? ==>
      (o.status == Ok <==>
         s.fenceValues[env.nextIndex] <= SeenAfterSignal(s.fence, s.fenceValues[s.frameIndex], env.progress))
    ensures env.signalError.None? && o.status.Failed? ==> env.setEventError == Some(o.status.error)
    ensures SignalsInOrder(s, s.fenceValues[s.frameIndex]) ==>
      GpuFence.Ordered(o.sync.fence) && s.fence.completed <= o.sync.fence.completed
    ensures Paced(s) ==> o.status != Deadlocked && GpuFence.Signaled(s.fence) <= GpuFence.Signaled(o.sync.fence)
    ensures Paced(s) && o.status == Ok ==> Paced(o.sync) && s.fenceValues[env.nextIndex] < o.sync.fenceValues[env.nextIndex]
  {
    var v := s.fenceValues[s.frameIndex];
    if env.signalError.Some? then Outcome(s, Failed(env.signalError.value), [])
    else
      var next := env.nextIndex;
      var target := s.fenceValues[next];
      var seen := GpuFence.Observe(GpuFence.Signal(s.fence, v), env.progress);
      SignalThenBlock(s.fence, v, env.progress, target, env.setEventError);
      var w := GpuFence.BlockUntil(seen, target, env.setEventError);
      PacedAfterRenew(s, w.fence, next);
      var calls := [SignalCall(v)] + WaitLog(target, w);
      var moved := s.(frameIndex := next, fence := w.fence);
      if w.status != Ok then Outcome(moved, w.status, calls)
      else Outcome(moved.(fenceValues := s.fenceValues[next := v + 1]), Ok, calls)
  }

  /** `fence_values.iter().max().unwrap_or(&0)`. */
  function MaxOf(values: seq<nat>): (m: nat)
    ensures forall i :: 0 <= i < |values| ==> values[i] <= m
    ensures |values| == 0 ==> m == 0
    ensures |values| > 0 ==> exists i :: 0 <= i < |values| && values[i] == m
  {
    if |values| == 0 then 0
    else
      var rest := MaxOf(values[..|values| - 1]);
      if rest < values[|values| - 1] then values[|values| - 1] else rest
  }

  /** `wait_for_gpu_idle`: signal the largest fence value of any slot
      (the value itself, not one more) and wait for the GPU to reach it.
      Nothing but the fence changes. */
  function WaitForGpuIdle(s: FrameSync, env: WaitEnv): (o: Outcome)
    ensures o.sync.frameIndex == s.frameIndex && o.sync.fenceValues == s.fenceValues
    ensures o.status != Deadlocked
    ensures env.signalError.Some? ==> o == Outcome(s, Failed(env.signalError.value), [])
    ensures env.signalError.None? ==>
      && GpuFence.Signaled(o.sync.fence) == MaxOf(s.fenceValues)
      && o.calls == SignalThenWait(MaxOf(s.fenceValues), MaxOf(s.fenceValues),
                                   SeenAfterSignal(s.fence, MaxOf(s.fenceValues), env.progress),
                                   env.setEventError)
    ensures o.status == Ok ==> forall i :: 0 <= i < |s.fenceValues| ==> s.fenceValues[i] <= o.sync.fence.completed
    ensures o.status == Ok <==>
      env.signalError.None? &&
      (env.setEventError.None? || MaxOf(s.fenceValues) <= SeenAfterSignal(s.fence, MaxOf(s.fenceValues), env.progress))
    ensures env.signalError.None? && o.status.Failed? ==> env.setEventError == Some(o.status.error)
    ensures SignalsInOrder(s, MaxOf(s.fenceValues)) ==>
      GpuFence.Ordered(o.sync.fence) && s.fence.completed <= o.sync.fence.completed
    ensures Paced(s) ==> Paced(o.sync) && GpuFence.Signaled(s.fence) <= GpuFence.Signaled(o.sync.fence)
  {
    var target := MaxOf(s.fenceValues);
    if env.signalError.Some? then Outcome(s, Failed(env.signalError.value), [])
    else
      var seen := GpuFence.Observe(GpuFence.Signal(s.fence, target), env.progress);
      SignalThenBlock(s.fence, target, env.progress, target, env.setEventError);
      var w := GpuFence.BlockUntil(seen, target, env.setEventError);
      PacedWithFence(s, w.fence);
      var calls := [SignalCall(target)] + WaitLog(target, w);
      Outcome(s.(fence := w.fence), w.status, calls)
  }

  /** Under the pacing invariant every slot other than the current one
      holds a value that has already been signaled. */
  lemma OtherSlotsSignaled(s: FrameSync)
    requires Paced(s)
    ensures forall i :: 0 <= i < |s.fenceValues| && i != s.frameIndex ==> s.fenceValues[i] <= GpuFence.Signaled(s.fence)
  {
  }

  /** Under the pacing invariant the largest fence value is the current
      slot's, so the drain waits for the work recorded most recently. */
  lemma DrainTargetIsCurrent(s: FrameSync)
    requires Paced(s)
    ensures MaxOf(s.fenceValues) == s.fenceValues[s.frameIndex]
  {
  }

  /** From a paced state, a successful `wait_for_gpu` on the current
      slot has waited for every slot's work, because the current slot
      holds the maximum. */
  lemma WaitForGpuCoversPaced(s: FrameSync, env: WaitEnv)
    requires Valid(s)
    ensures Paced(s) && WaitForGpu(s, env).status == Ok ==>
      forall i :: 0 <= i < |s.fenceValues| ==> s.fenceValues[i] <= WaitForGpu(s, env).sync.fence.completed
  {
  }

  /** Whatever slot the swap chain hands back, the value `move_to_next_frame`
      waits for is at most the value it has just signaled, so the wait
      always ends once the GPU catches up: it cannot deadlock. */
  lemma MoveWaitTargetSignaled(s: FrameSync, next: nat)
    requires Paced(s) && next < |s.fenceValues|
    ensures s.fenceValues[next] <= s.fenceValues[s.frameIndex]
  {
  }

  /** From a paced state, `move_to_next_frame` succeeds whenever its
      `Signal` and `SetEventOnCompletion` do, whatever slot comes next and
      however far the GPU has got. */
  lemma PacedMoveSucceeds(s: FrameSync, env: MoveEnv)
    requires Valid(s) && env.nextIndex < |s.fenceValues|
    ensures Paced(s) && env.signalError.None? && env.setEventError.None? ==> MoveToNextFrame(s, env).status == Ok
  {
    if Paced(s) {
      MoveWaitTargetSignaled(s, env.nextIndex);
    }
  }

  /** When the signals queued so far are in order and none is above the
      largest slot value, a second drain right after a successful one
      signals the same value, does not block, succeeds, and changes no
      fence value: the drain is idempotent. */
  lemma DrainIdempotent(s: FrameSync, first: WaitEnv, second: WaitEnv)
    requires SignalsInOrder(s, MaxOf(s.fenceValues))
    requires WaitForGpuIdle(s, first).status == Ok
    requires second.signalError.None?
    ensures var o1 := WaitForGpuIdle(s, first);
            var o2 := WaitForGpuIdle(o1.sync, second);
            && o2.status == Ok
            && o2.calls == [SignalCall(MaxOf(s.fenceValues))]
            && o2.sync.fenceValues == s.fenceValues
            && o2.sync.frameIndex == s.frameIndex
  {
  }

  /** Error path: if arming the event fails in `move_to_next_frame`, the
      frame index has already moved to the next slot but nothing was
      waited for and that slot's value is not renewed. In this reachable
      state the new current slot's previous work (signaled as 2) has not
      completed (the fence is at 1, with 2 and 3 still queued), and the
      pacing invariant is lost. */
  lemma MoveSetEventFailureLosesPacing()
    ensures var s := FrameSync(0, [3, 2], GpuFence.Fence(1, [2]));
            var e := Error(0x8007_0006, "The handle is invalid.");
            var o := MoveToNextFrame(s, MoveEnv(None, 1, 0, Some(e)));
            && Paced(s)
            && o.status == Failed(e)
            && o.sync == FrameSync(1, [3, 2], GpuFence.Fence(1, [2, 3]))
            && o.sync.fence.completed < o.sync.fenceValues[1]
            && !Paced(o.sync)
  {
  }

  /** What follows if the caller carries on after that error: the next
      `move_to_next_frame` queues 2 behind the 3 already queued and waits
      for slot 0's 3. The wait ends (3 is queued), but the queue is now out
      of order: once the GPU executes the trailing signal the fence value
      drops back to 2, below what the CPU has already waited for. */
  lemma LostPacingRunsFenceBackwards()
    ensures var lost := FrameSync(1, [3, 2], GpuFence.Fence(1, [2, 3]));
            var o := MoveToNextFrame(lost, MoveEnv(None, 0, 0, None));
            && o.status == Ok
            && o.calls == [SignalCall(2), WaitCall(3)]
            && o.sync.fence == GpuFence.Fence(3, [2])
            && !GpuFence.Ordered(o.sync.fence)
            && GpuFence.Observe(o.sync.fence, 1).completed == 2
            && !Paced(o.sync)
  {
  }
}

=== FILE: lifecycle.dfy ===
/** The sample's lifecycle: it is either unbound or bound to a window with
    its frame resources (the `Option<Resources>` of the Rust code). Binding
    creates the resources and primes the fence; rendering records, submits,
    presents and advances; destruction drains the GPU and closes the fence
    event. */
module Lifecycle {
  import opened Native
  import opened Commands
  import opened Calls
  import opened FramePacing
  import GpuFence

  /** FRAME_COUNT: the number of swap-chain back buffers and frame slots. */
  const FrameCount: nat := 2

  /** The Win32 event the fence signals; `valid` is `!is_invalid()`. */
  datatype EventHandle = EventHandle(valid: bool, open: bool)

  /** The single command list: the allocator it was last reset against,
      the commands issued on it since, and whether it is closed. */
  datatype CommandList = CommandList(allocator: nat, commands: seq<Command>, closed: bool)

  /** The part of `Resources` the model keeps: the pacing state, the RTV
      heap layout and the views written for each back buffer, the fence
      event, the command list, and the sample's clear colour. Device
      objects without behaviour here (queue, swap chain, PSO, root
      signature, vertex buffer, viewport) are left out. */
  datatype Resources = Resources(
    sync: FrameSync,
    rtvHeapStart: nat,
    rtvDescriptorSize: nat,
    renderTargetViews: seq<nat>,
    fenceEvent: EventHandle,
    commandList: CommandList,
    clearColor: Rgba)

  datatype Sample = Unbound | Bound(res: Resources)

  /** Outcomes of the native calls of `bind_to_window`: the first error
      among the calls before the fence event check, the back-buffer index
      and RTV heap the device reports, whether `CreateEventA` returned a
      valid handle (and the last Win32 error if not), the first error
      among the calls after it, and the outcomes of the initial wait. */
  datatype BindEnv = BindEnv(
    setupError: Option<Error>,
    frameIndex: nat,
    rtvHeapStart: nat,
    rtvDescriptorSize: nat,
    eventValid: bool,
    lastError: Error,
    lateError: Option<Error>,
    prime: WaitEnv,
    clearColor: Rgba)

  datatype Step = Step(sample: Sample, status: Status, calls: seq<Call>)

  /** The RTV of back buffer i is written at heap start + i * increment. */
  function RtvTable(heapStart: nat, descriptorSize: nat, n: nat): (t: seq<nat>)
    ensures |t| == n
    ensures forall i :: 0 <= i < n ==> t[i] == RtvAddress(heapStart, i, descriptorSize)
  {
    seq(n, i requires 0 <= i => RtvAddress(heapStart, i, descriptorSize))
  }

  function Zeros(n: nat): (z: seq<nat>)
    ensures |z| == n && forall i :: 0 <= i < n ==> z[i] == 0
  {
    seq(n, i => 0)
  }

  /** `bind_to_window`: build the resources with the fence at 0 and every
      slot's value 0, create the command list on the current slot's
      allocator and close it, then run the initial `wait_for_gpu`. The
      sample is bound only if every step succeeds. */
  function BindToWindow(sample: Sample, env: BindEnv): (o: Step)
    requires env.frameIndex < FrameCount
    ensures o.status == Ok <==>
      env.setupError.None? && env.eventValid && env.lateError.None? && env.prime.signalError.None?
    ensures o.status != Ok ==> o.sample == sample
    ensures !env.eventValid && env.setupError.None? ==> o.status == Failed(env.lastError)
    ensures o.calls == [] || o.calls == [SignalCall(0)]
    ensures o.status == Ok ==> o.sample.Bound? && BoundFresh(o.sample.res, env)
  {
    if env.setupError.Some? then Step(sample, Failed(env.setupError.value), [])
    else if !env.eventValid then Step(sample, Failed(env.lastError), [])
    else if env.lateError.Some? then Step(sample, Failed(env.lateError.value), [])
    else
      var primed := WaitForGpu(Initial(env.frameIndex), env.prime);
      PrimeBindsFresh(env);
      if primed.status != Ok then Step(sample, primed.status, primed.calls)
      else Step(Bound(BoundResources(env, primed.sync)), Ok, primed.calls)
  }

  /** The frame state before the prime: every slot holds 0, nothing is
      signaled or queued. */
  function Initial(frameIndex: nat): FrameSync
  {
    FrameSync(frameIndex, Zeros(FrameCount), GpuFence.Fence(0, []))
  }

  /** The resources `bind_to_window` keeps once the prime has left the
      frame state `sync`: the views, an open event, the closed list. */
  function BoundResources(env: BindEnv, sync: FrameSync): Resources
  {
    Resources(sync, env.rtvHeapStart, env.rtvDescriptorSize,
              RtvTable(env.rtvHeapStart, env.rtvDescriptorSize, FrameCount),
              EventHandle(true, true), CommandList(env.frameIndex, [], true),
              env.clearColor)
  }

  /** The prime waits for value 0, which the fence already holds, so it
      fails only if the signal does, logs at most that signal, and leaves
      a freshly bound state. */
  lemma PrimeBindsFresh(env: BindEnv)
    requires env.frameIndex < FrameCount
    ensures var primed := WaitForGpu(Initial(env.frameIndex), env.prime);
      && (primed.status == Ok <==> env.prime.signalError.None?)
      && (primed.calls == [] || primed.calls == [SignalCall(0)])
      && (primed.status == Ok ==> BoundFresh(BoundResources(env, primed.sync), env))
  {
  }

  /** The state a successful bind leaves: current slot as the swap chain
      reported it, holding fence value 1 while every other slot holds 0,
      the fence signaled with 0, the views laid out one increment apart,
      the event open, and the command list closed on the current slot's
      allocator. */
  predicate BoundFresh(r: Resources, env: BindEnv)
  {
    && r.sync.frameIndex == env.frameIndex < FrameCount
    && |r.sync.fenceValues| == FrameCount
    && r.sync.fenceValues[env.frameIndex] == 1
    && (forall i :: 0 <= i < FrameCount && i != env.frameIndex ==> r.sync.fenceValues[i] == 0)
    && GpuFence.Signaled(r.sync.fence) == 0
    && Paced(r.sync)
    && |r.renderTargetViews| == FrameCount
    && (forall i :: 0 <= i < FrameCount ==>
          r.renderTargetViews[i] == r.rtvHeapStart + i * r.rtvDescriptorSize)
    && r.rtvHeapStart == env.rtvHeapStart && r.rtvDescriptorSize == env.rtvDescriptorSize
    && r.fenceEvent == EventHandle(true, true)
    && r.commandList == CommandList(env.frameIndex, [], true)
    && r.clearColor == env.clearColor
  }

  /** Which of the three fallible calls of `populate_command_list` fails:
      the allocator reset, the list reset, or the close. */
  datatype PopulateEnv = PopulateEnv(allocatorResetError: Option<Error>, listResetError: Option<Error>,
                                     closeError: Option<Error>)

  /** Outcomes of one `render`: populate, the `cast` to ID3D12CommandList,
      Present, and `move_to_next_frame`. */
  datatype FrameEnv = FrameEnv(populate: PopulateEnv, castError: Option<Error>, presentError: Option<Error>,
                               move: MoveEnv)

  /** The commands this frame records for the current slot. */
  function FrameCommands(r: Resources): seq<Command>
  {
    PopulateCommandList(r.sync.frameIndex, r.rtvHeapStart, r.rtvDescriptorSize, r.clearColor)
  }

  /** The command list after `populate_command_list`, and the error it
      returned, if any. */
  datatype Recorded = Recorded(list: CommandList, error: Option<Error>)

  /** `populate_command_list` with its fallible calls, stopping at the
      first failure: a failed reset leaves the list as it was; once both
      resets succeed the whole frame is recorded on the current slot's
      allocator, and the list is closed unless `Close` fails. */
  function Populate(r: Resources, env: PopulateEnv): (o: Recorded)
    ensures o.error.None? <==>
      env.allocatorResetError.None? && env.listResetError.None? && env.closeError.None?
    ensures env.allocatorResetError.Some? ==> o == Recorded(r.commandList, env.allocatorResetError)
    ensures env.allocatorResetError.None? && env.listResetError.Some? ==>
      o == Recorded(r.commandList, env.listResetError)
    ensures env.allocatorResetError.None? && env.listResetError.None? ==>
      && o.list.allocator == r.sync.frameIndex
      && o.list.commands == FrameCommands(r)
      && (o.list.closed <==> env.closeError.None?)
      && o.error == env.closeError
  {
    var fi := r.sync.frameIndex;
    if env.allocatorResetError.Some? then Recorded(r.commandList, env.allocatorResetError)
    else if env.listResetError.Some? then Recorded(r.commandList, env.listResetError)
    else if env.closeError.Some? then Recorded(CommandList(fi, FrameCommands(r), false), env.closeError)
    else Recorded(CommandList(fi, FrameCommands(r), true), None)
  }

  /** Every fallible call of one frame succeeds: both resets, `Close`, the
      cast, Present, and the `Signal` and `SetEventOnCompletion` of the
      move. */
  predicate NoFrameError(env: FrameEnv)
  {
    && env.populate.allocatorResetError.None? && env.populate.listResetError.None?
    && env.populate.closeError.None? && env.castError.None? && env.presentError.None?
    && env.move.signalError.None? && env.move.setEventError.None?
  }

  predicate CanRender(sample: Sample, env: FrameEnv)
  {
    sample.Bound? ==> Valid(sample.res.sync) && env.move.nextIndex < |sample.res.sync.fenceValues|
  }

  /** `render`: nothing when unbound; otherwise populate, execute the one
      list, Present(1), `move_to_next_frame`, stopping at the first error. */
  function Render(sample: Sample, env: FrameEnv): (o: Step)
    requires CanRender(sample, env)
    ensures sample.Unbound? ==> o == Step(sample, Ok, [])
    ensures o.sample.Bound? <==> sample.Bound?
    ensures sample.Bound? ==> RenderSteps(sample.res, env, o)
    ensures sample.Bound? ==> Unmoved(sample.res, o.sample.res)
    ensures sample.Bound? && Paced(sample.res.sync) ==>
      && o.status != Deadlocked
      && |o.sample.res.sync.fenceValues| == |sample.res.sync.fenceValues|
      && sample.res.sync.fence.completed <= o.sample.res.sync.fence.completed
      && (o.status == Ok ==> Paced(o.sample.res.sync))
      && (NoFrameError(env) ==> o.status == Ok)
  {
    match sample
    case Unbound => Step(sample, Ok, [])
    case Bound(r) =>
      var populated := Populate(r, env.populate);
      var list := populated.list;
      var recorded := r.(commandList := list);
      if populated.error.Some? then Step(Bound(recorded), Failed(populated.error.value), [])
      else if env.castError.Some? then Step(Bound(recorded), Failed(env.castError.value), [])
      else Submit(r, env)
  }

  /** The rest of `render` once the list is recorded and the swap chain
      cast: execute the list, Present(1), then `move_to_next_frame`. */
  function Submit(r: Resources, env: FrameEnv): (o: Step)
    requires Valid(r.sync) && env.move.nextIndex < |r.sync.fenceValues|
    requires Populate(r, env.populate).error.None? && env.castError.None?
    ensures o.sample.Bound?
    ensures RenderSteps(r, env, o)
    ensures Unmoved(r, o.sample.res)
    ensures Paced(r.sync) ==>
      && o.status != Deadlocked
      && |o.sample.res.sync.fenceValues| == |r.sync.fenceValues|
      && r.sync.fence.completed <= o.sample.res.sync.fence.completed
      && (o.status == Ok ==> Paced(o.sample.res.sync))
      && (NoFrameError(env) ==> o.status == Ok)
  {
    var list := Populate(r, env.populate).list;
    var recorded := r.(commandList := list);
    var submitted := [ExecuteCall(list.commands), PresentCall(1)];
    if env.presentError.Some? then Step(Bound(recorded), Failed(env.presentError.value), submitted)
    else
      var moved := MoveToNextFrame(r.sync, env.move);
      SubmittedOnce(list.commands, moved.calls);
      PacedMoveSucceeds(r.sync, env.move);
      Step(Bound(recorded.(sync := moved.sync)), moved.status, submitted + moved.calls)
  }

  /** The calls that follow a list and Present execute no list when the
      fence calls after them do not. */
  lemma SubmittedOnce(commands: seq<Command>, fenceCalls: seq<Call>)
    ensures (forall k :: 0 <= k < |fenceCalls| ==> fenceCalls[k].SignalCall? || fenceCalls[k].WaitCall?) ==>
      var calls := [ExecuteCall(commands), PresentCall(1)] + fenceCalls;
      forall k :: 1 <= k < |calls| ==> !calls[k].ExecuteCall?
  {
    var calls := [ExecuteCall(commands), PresentCall(1)] + fenceCalls;
    forall k | 2 <= k < |calls| ensures calls[k] == fenceCalls[k - 2] { }
  }

  /** What a bound render does, step by step: if populate, the cast or
      Present fails, no fence value, frame index or fence changes and no
      signal is sent; otherwise exactly one list is executed (the one
      recorded for the current slot), Present is called with sync interval
      1, and then the current slot's value is signaled and the frame
      advances; the frame then ends as `move_to_next_frame` does. */
  predicate RenderSteps(r: Resources, env: FrameEnv, o: Step)
    requires o.sample.Bound?
    requires Valid(r.sync) && env.move.nextIndex < |r.sync.fenceValues|
  {
    var p := env.populate;
    var recorded := p.allocatorResetError.None? && p.listResetError.None? && p.closeError.None?;
    && (!recorded ==> o.calls == [] && o.sample.res.sync == r.sync && o.status.Failed?)
    && (recorded && env.castError.Some? ==>
          o.calls == [] && o.sample.res.sync == r.sync && o.status == Failed(env.castError.value))
    && (recorded && env.castError.None? ==>
          && |o.calls| >= 2
          && o.calls[0] == ExecuteCall(FrameCommands(r))
          && o.calls[1] == PresentCall(1)
          && (forall k :: 1 <= k < |o.calls| ==> !o.calls[k].ExecuteCall?))
    && (recorded && env.castError.None? && env.presentError.Some? ==>
          o.calls == [ExecuteCall(FrameCommands(r)), PresentCall(1)]
          && o.sample.res.sync == r.sync && o.status == Failed(env.presentError.value))
    && (recorded && env.castError.None? && env.presentError.None? && env.move.signalError.None? ==>
          |o.calls| >= 3 && o.calls[2] == SignalCall(r.sync.fenceValues[r.sync.frameIndex])
          && o.sample.res.sync.frameIndex == env.move.nextIndex)
    && (recorded && env.castError.None? && env.presentError.None? ==>
          o.status == MoveToNextFrame(r.sync, env.move).status)
    && (o.status == Ok ==> recorded && o.sample.res.commandList == CommandList(r.sync.frameIndex, FrameCommands(r), true))
  }

  /** Rendering never touches the RTV layout, the event or the colour. */
  predicate Unmoved(before: Resources, after: Resources)
  {
    && after.rtvHeapStart == before.rtvHeapStart
    && after.rtvDescriptorSize == before.rtvDescriptorSize
    && after.renderTargetViews == before.renderTargetViews
    && after.fenceEvent == before.fenceEvent
    && after.clearColor == before.clearColor
  }

  /** The view `populate_command_list` binds and clears for the current
      slot is the very view `bind_to_window` wrote for that back buffer,
      for as long as the sample renders. */
  lemma RecordedViewIsBoundView(r: Resources)
    requires |r.renderTargetViews| == |r.sync.fenceValues| && r.sync.frameIndex < |r.sync.fenceValues|
    requires r.renderTargetViews == RtvTable(r.rtvHeapStart, r.rtvDescriptorSize, |r.renderTargetViews|)
    ensures SetRenderTarget(r.renderTargetViews[r.sync.frameIndex]) in FrameCommands(r)
    ensures ClearRenderTarget(r.renderTargetViews[r.sync.frameIndex], r.clearColor) in FrameCommands(r)
  {
  }

  /** `bind_to_window` computes `i * rtv_descriptor_size` in u32. With
      FRAME_COUNT = 2 the index is 0 or 1, so the product is at most the
      increment itself and never wraps; and distinct back buffers get
      distinct views whenever the increment is non-zero. */
  lemma RtvOffsetsFitAndDiffer(heapStart: nat, descriptorSize: nat)
    requires descriptorSize < 0x1_0000_0000
    ensures forall i :: 0 <= i < FrameCount ==> i * descriptorSize < 0x1_0000_0000
    ensures 0 < descriptorSize ==>
      forall i, j :: 0 <= i < j < FrameCount ==> RtvAddress(heapStart, i, descriptorSize) < RtvAddress(heapStart, j, descriptorSize)
  {
  }

  /** Outcome of `on_destroy`, which returns nothing: the drain's error is
      only logged. `panicked` records an `unwrap` of a failed close. */
  datatype Teardown = Teardown(sample: Sample, drain: Status, calls: seq<Call>, panicked: bool)

  /** What a variant does with the result of `CloseHandle`: the
      transparent samples discard it with `.ok()`, the first
      frame-buffered sample `unwrap`s it and so panics on failure. */
  datatype CloseHandling = IgnoreCloseError | PanicOnCloseError

  /** `on_destroy` (the transparent samples): when bound, drain the GPU with
      `wait_for_gpu_idle`, then close the fence event if it is valid,
      whether or not the drain succeeded. A failed close is ignored.
      `closeError` is the failure of `CloseHandle`, if any. */
  function OnDestroy(sample: Sample, env: WaitEnv, closeError: Option<Error>): (t: Teardown)
    ensures sample.Unbound? ==> t == Teardown(sample, Ok, [], false)
    ensures !t.panicked
    ensures sample.Bound? ==>
      && DrainedThenClosed(sample.res, WaitForGpuIdle(sample.res.sync, env), closeError, t)
      && t.drain != Deadlocked
    ensures sample.Bound? ==> t.sample.res.sync.fenceValues == sample.res.sync.fenceValues
    ensures sample.Bound? && t.drain == Ok ==>
      forall i :: 0 <= i < |sample.res.sync.fenceValues| ==>
        sample.res.sync.fenceValues[i] <= t.sample.res.sync.fence.completed
  {
    match sample
    case Unbound => Teardown(sample, Ok, [], false)
    case Bound(r) =>
      var d := WaitForGpuIdle(r.sync, env);
      IdleDrainsOnly(r, env);
      CloseEvent(r, d, closeError, IgnoreCloseError)
  }

  /** The close step shared by both `on_destroy` variants, after the
      drain `drained`: `CloseHandle` is called exactly when the event is
      valid; the event is closed only if that call succeeds, and a failure
      panics only under `unwrap`. Nothing but the fence (from the drain)
      and the event changes. */
  function CloseEvent(r: Resources, drained: FramePacing.Outcome, closeError: Option<Error>,
                      handling: CloseHandling): (t: Teardown)
    ensures t.sample.Bound? && t.drain == drained.status
    ensures t.sample.res == r.(sync := drained.sync, fenceEvent := t.sample.res.fenceEvent)
    ensures t.sample.res.fenceEvent.valid == r.fenceEvent.valid
    ensures t.sample.res.fenceEvent.open <==> r.fenceEvent.open && (!r.fenceEvent.valid || closeError.Some?)
    ensures drained.calls <= t.calls
    ensures t.calls == drained.calls || t.calls == drained.calls + [CloseEventCall]
    ensures |t.calls| > |drained.calls| <==> r.fenceEvent.valid
    ensures t.panicked <==> r.fenceEvent.valid && closeError.Some? && handling == PanicOnCloseError
    ensures DrainOnly(r, drained) ==> DrainedThenClosed(r, drained, closeError, t)
  {
    var after := r.(sync := drained.sync);
    if !r.fenceEvent.valid then Teardown(Bound(after), drained.status, drained.calls, false)
    else
      var calls := drained.calls + [CloseEventCall];
      match closeError
      case None => Teardown(Bound(after.(fenceEvent := r.fenceEvent.(open := false))), drained.status, calls, false)
      case Some(_) => Teardown(Bound(after), drained.status, calls, handling == PanicOnCloseError)
  }

  /** A drain that keeps the frame index and makes only fence calls. */
  predicate DrainOnly(r: Resources, drained: FramePacing.Outcome)
  {
    && drained.sync.frameIndex == r.sync.frameIndex
    && forall k :: 0 <= k < |drained.calls| ==> !drained.calls[k].CloseEventCall?
  }

  /** The teardown `t` of the sample holding `r` keeps the fence state
      and the calls of the drain `d`, then closes the event. */
  predicate DrainedThenClosed(r: Resources, d: FramePacing.Outcome, closeError: Option<Error>, t: Teardown)
  {
    && t.sample.Bound?
    && t.drain == d.status
    && t.sample.res.sync == d.sync
    && d.calls <= t.calls
    && Closes(r, closeError, t)
  }

  /** Both drains keep the frame index and make only fence calls. */
  lemma IdleDrainsOnly(r: Resources, env: WaitEnv)
    ensures DrainOnly(r, WaitForGpuIdle(r.sync, env))
  {
  }

  lemma CurrentDrainsOnly(r: Resources, env: WaitEnv)
    ensures Valid(r.sync) ==> DrainOnly(r, WaitForGpu(r.sync, env))
  {
    if Valid(r.sync) {
      var d := WaitForGpu(r.sync, env);
      assert d.calls == [] || d.calls == [d.calls[0]] + d.calls[1..];
    }
  }

  /** `CloseHandle` is the last call, made exactly when the event is valid
      and after all the drain's fence calls; the event ends up closed
      exactly when it was valid and the close succeeded; nothing else
      but the fence changes. */
  predicate Closes(r: Resources, closeError: Option<Error>, t: Teardown)
    requires t.sample.Bound?
  {
    var after := t.sample.res;
    && (r.fenceEvent.valid <==> |t.calls| >= 1 && t.calls[|t.calls| - 1] == CloseEventCall)
    && (forall k :: 0 <= k < |t.calls| - 1 ==> !t.calls[k].CloseEventCall?)
    && after.fenceEvent ==
         (if r.fenceEvent.valid && closeError.None? then r.fenceEvent.(open := false) else r.fenceEvent)
    && after.sync.frameIndex == r.sync.frameIndex
    && after.commandList == r.commandList && after.renderTargetViews == r.renderTargetViews
  }

  /** `on_destroy` of the first frame-buffered sample: it drains with
      `wait_for_gpu` (the current slot's value) rather than the maximum
      over all slots, then closes the event, panicking if the close
      fails. Under the pacing invariant the current slot holds the
      maximum, so this drains every slot too. */
  function OnDestroyCurrentSlot(sample: Sample, env: WaitEnv, closeError: Option<Error>): (t: Teardown)
    requires sample.Bound? ==> Valid(sample.res.sync)
    ensures sample.Unbound? ==> t == Teardown(sample, Ok, [], false)
    ensures t.panicked <==> sample.Bound? && sample.res.fenceEvent.valid && closeError.Some?
    ensures sample.Bound? ==>
      && DrainedThenClosed(sample.res, WaitForGpu(sample.res.sync, env), closeError, t)
      && t.drain != Deadlocked
    ensures sample.Bound? && Paced(sample.res.sync) && t.drain == Ok ==>
      forall i :: 0 <= i < |sample.res.sync.fenceValues| ==>
        sample.res.sync.fenceValues[i] <= t.sample.res.sync.fence.completed
  {
    match sample
    case Unbound => Teardown(sample, Ok, [], false)
    case Bound(r) =>
      var d := WaitForGpu(r.sync, env);
      CurrentDrainsOnly(r, env);
      WaitForGpuCoversPaced(r.sync, env);
      CloseEvent(r, d, closeError, PanicOnCloseError)
  }
}

=== FILE: native.dfy ===
/** Outcomes of the native calls the samples make (HRESULT errors), and the
    shape of an operation's completion: it returns normally, returns an
    error, or blocks forever on a fence wait that can never be satisfied. */
module Native {

  /** An HRESULT error as `windows::core::Error` carries it: a 32-bit code
      (written here as its unsigned bit pattern) and a message. */
  datatype Error = Error(code: nat, message: string)

  /** DXGI_ERROR_NOT_FOUND: `EnumAdapters1` ran past the last adapter. */
  const DxgiErrorNotFound: nat := 0x887A_0002

  /** E_FAIL: the generic failure code. */
  const EFail: nat := 0x8000_4005

  /** How a step of the frame-pacing protocol ended. `Deadlocked` is the
      one outcome Rust cannot return: a `WaitForSingleObjectEx(INFINITE)`
      on a fence value that nobody has signaled never comes back. */
  datatype Status = Ok | Failed(error: Error) | Deadlocked

  datatype Option<T> = None | Some(value: T)
}

=== FILE: scheduler.dfy ===
/** The steady-state loop: `render` called once per frame on a bound
    sample. Over any run the model proves the property the whole protocol
    exists for: a slot's allocator is never reset while the GPU may still
    be executing the list last recorded from it. */
module Scheduler {
  import opened Native
  import opened Calls
  import opened FramePacing
  import opened Lifecycle

  /** Inputs fit a run from `r`: the swap chain only reports indices of
      existing back buffers. */
  predicate Fits(r: Resources, frames: seq<FrameEnv>)
  {
    forall k :: 0 <= k < |frames| ==> frames[k].move.nextIndex < |r.sync.fenceValues|
  }

  /** The value of the first fence signal among `calls` (0 if none): the
      value whose completion means the list executed just before it has
      retired. */
  function FirstSignal(calls: seq<Call>): nat
  {
    if |calls| == 0 then 0
    else if calls[0].SignalCall? then calls[0].value
    else FirstSignal(calls[1..])
  }

  /** One reset of a slot's allocator, seen by a monitor beside the GPU:
      the slot, the fence value the GPU had reached, and the value whose
      completion retires the list last submitted from that slot. */
  datatype Reset = Reset(slot: nat, completed: nat, retire: nat)

  predicate Safe(e: Reset)
  {
    e.retire <= e.completed
  }

  /** The resets of a run of frames, stopping after the first frame that
      fails. `retire[i]` is the value signaled right after slot i's last
      list was executed; it is learnt from the queue calls, not from the
      fence values the sample keeps. */
  function Resets(r: Resources, retire: seq<nat>, frames: seq<FrameEnv>): seq<Reset>
    requires Paced(r.sync) && |retire| == |r.sync.fenceValues| && Fits(r, frames)
    decreases |frames|
  {
    if |frames| == 0 then []
    else
      var cur := r.sync.frameIndex;
      var o := Render(Bound(r), frames[0]);
      var e := Reset(cur, r.sync.fence.completed, retire[cur]);
      if o.status != Ok then [e]
      else [e] + Resets(o.sample.res, retire[cur := FirstSignal(o.calls)], frames[1..])
  }

  /** The fence values signaled by a run of frames, one per successful
      frame, stopping at the first failure. */
  function Signals(r: Resources, frames: seq<FrameEnv>): seq<nat>
    requires Paced(r.sync) && Fits(r, frames)
    decreases |frames|
  {
    if |frames| == 0 then []
    else
      var o := Render(Bound(r), frames[0]);
      if o.status != Ok then []
      else [FirstSignal(o.calls)] + Signals(o.sample.res, frames[1..])
  }

  /** The relation between what the monitor learnt and the sample's state:
      the current slot's previous list has retired, and every other slot's
      previous list retires no later than that slot's stored value. */
  predicate Tracks(r: Resources, retire: seq<nat>)
    requires Valid(r.sync)
  {
    && |retire| == |r.sync.fenceValues|
    && retire[r.sync.frameIndex] <= r.sync.fence.completed
    && forall i :: 0 <= i < |retire| && i != r.sync.frameIndex ==> retire[i] <= r.sync.fenceValues[i]
  }

  /** A successful frame signals the current slot's value right after
      executing its list, and the slot it moves to then holds the next
      value. */
  lemma FrameSignalsCurrent(r: Resources, env: FrameEnv)
    requires Paced(r.sync) && env.move.nextIndex < |r.sync.fenceValues|
    requires Render(Bound(r), env).status == Ok
    ensures var o := Render(Bound(r), env);
            var fv, next := r.sync.fenceValues, env.move.nextIndex;
            && FirstSignal(o.calls) == fv[r.sync.frameIndex]
            && o.sample.res.sync.frameIndex == next
            && o.sample.res.sync.fenceValues == fv[next := fv[r.sync.frameIndex] + 1]
            && fv[next] <= o.sample.res.sync.fence.completed
  {
    var o := Render(Bound(r), env);
    var v := r.sync.fenceValues[r.sync.frameIndex];
    assert o.calls[2] == SignalCall(v);
    assert FirstSignal(o.calls[2..]) == v;
    assert FirstSignal(o.calls[1..]) == FirstSignal(o.calls[2..]);
    assert o.sample.res.sync == MoveToNextFrame(r.sync, env.move).sync;
  }

  /** The monitor's relation survives a frame that signals the current
      slot's value, waits for the next slot's value and stores the next
      value in the next slot. */
  lemma MoveKeepsTracking(r: Resources, after: Resources, retire: seq<nat>)
    requires Valid(r.sync) && Valid(after.sync) && Tracks(r, retire)
    requires |after.sync.fenceValues| == |r.sync.fenceValues|
    requires var fv, next := r.sync.fenceValues, after.sync.frameIndex;
      && after.sync.fenceValues == fv[next := fv[r.sync.frameIndex] + 1]
      && fv[next] <= after.sync.fence.completed
    ensures Tracks(after, retire[r.sync.frameIndex := r.sync.fenceValues[r.sync.frameIndex]])
  {
    var cur, next := r.sync.frameIndex, after.sync.frameIndex;
    var retire' := retire[cur := r.sync.fenceValues[cur]];
    forall i | 0 <= i < |retire'| && i != next ensures retire'[i] <= after.sync.fenceValues[i] {
      assert after.sync.fenceValues[i] == r.sync.fenceValues[i];
    }
  }

  /** A successful frame keeps the monitor's relation: the slot just
      submitted retires at the value just signaled, which is below the
      value that slot now stores. */
  lemma FrameKeepsTracking(r: Resources, retire: seq<nat>, env: FrameEnv)
    requires Paced(r.sync) && Tracks(r, retire) && env.move.nextIndex < |r.sync.fenceValues|
    requires Render(Bound(r), env).status == Ok
    ensures var o := Render(Bound(r), env);
            Tracks(o.sample.res, retire[r.sync.frameIndex := FirstSignal(o.calls)])
  {
    FrameSignalsCurrent(r, env);
    MoveKeepsTracking(r, Render(Bound(r), env).sample.res, retire);
  }

  /** After a successful first frame the run goes on from a paced state
      that fits the remaining frames. */
  lemma NextFits(r: Resources, frames: seq<FrameEnv>)
    requires Paced(r.sync) && Fits(r, frames) && |frames| > 0
    ensures var o := Render(Bound(r), frames[0]);
      o.status == Ok ==> Paced(o.sample.res.sync) && Fits(o.sample.res, frames[1..])
  {
    var o := Render(Bound(r), frames[0]);
    assert |o.sample.res.sync.fenceValues| == |r.sync.fenceValues|;
  }

  /** One step of `Resets`: the first reset is safe, and after a
      successful frame the run continues from a state `next` that is
      paced, fits the remaining frames and is tracked by `retire'`. */
  lemma ResetsStep(r: Resources, retire: seq<nat>, frames: seq<FrameEnv>)
      returns (next: Resources, retire': seq<nat>)
    requires Paced(r.sync) && Tracks(r, retire) && Fits(r, frames) && |frames| > 0
    ensures |Resets(r, retire, frames)| > 0 && Safe(Resets(r, retire, frames)[0])
    ensures |Resets(r, retire, frames)| > 1 ==>
      && Paced(next.sync) && Tracks(next, retire') && Fits(next, frames[1..])
      && Resets(r, retire, frames)[1..] == Resets(next, retire', frames[1..])
  {
    var o := Render(Bound(r), frames[0]);
    next := o.sample.res;
    retire' := retire[r.sync.frameIndex := FirstSignal(o.calls)];
    if o.status == Ok {
      FrameKeepsTracking(r, retire, frames[0]);
      NextFits(r, frames);
      assert Resets(r, retire, frames)[1..] == Resets(next, retire', frames[1..]);
    } else {
      assert |Resets(r, retire, frames)| == 1;
    }
  }

  /** A run of resets is safe if its first reset and all the rest are. */
  lemma AllSafe(all: seq<Reset>)
    requires |all| > 0 && Safe(all[0])
    requires forall k :: 0 <= k < |all[1..]| ==> Safe(all[1..][k])
    ensures forall k :: 0 <= k < |all| ==> Safe(all[k])
  {
    forall k | 0 < k < |all| ensures Safe(all[k]) {
      assert all[k] == all[1..][k - 1];
    }
  }

  /** `v` followed by v + 1, v + 2, ... counts up from `v`. */
  lemma Consecutive(v: nat, later: seq<nat>)
    requires forall k :: 0 <= k < |later| ==> later[k] == v + 1 + k
    ensures forall k :: 0 <= k < |[v] + later| ==> ([v] + later)[k] == v + k
  {
    forall k | 0 < k < |[v] + later| ensures ([v] + later)[k] == v + k {
      assert ([v] + later)[k] == later[k - 1];
    }
  }

  /** No reset in any run is unsafe: every time `render` resets the
      current slot's allocator, the GPU has already passed the value
      signaled after that slot's previous list. */
  lemma {:induction false} ResetsAreSafe(r: Resources, retire: seq<nat>, frames: seq<FrameEnv>)
    requires Paced(r.sync) && Tracks(r, retire) && Fits(r, frames)
    ensures forall k :: 0 <= k < |Resets(r, retire, frames)| ==> Safe(Resets(r, retire, frames)[k])
    decreases |frames|
  {
    if |frames| > 0 {
      var next, retire' := ResetsStep(r, retire, frames);
      var all := Resets(r, retire, frames);
      if |all| > 1 {
        ResetsAreSafe(next, retire', frames[1..]);
        AllSafe(all);
      }
    }
  }

  /** One step of `Signals`: a run that signals anything signals the
      current slot's value first, and continues from a paced state `next`
      whose current slot holds the next value. */
  lemma SignalsStep(r: Resources, frames: seq<FrameEnv>) returns (next: Resources)
    requires Paced(r.sync) && Fits(r, frames) && |frames| > 0
    ensures Signals(r, frames) != [] ==>
      && Paced(next.sync) && Fits(next, frames[1..])
      && next.sync.fenceValues[next.sync.frameIndex] == r.sync.fenceValues[r.sync.frameIndex] + 1
      && Signals(r, frames) == [r.sync.fenceValues[r.sync.frameIndex]] + Signals(next, frames[1..])
  {
    var o := Render(Bound(r), frames[0]);
    next := o.sample.res;
    if o.status == Ok {
      FrameSignalsCurrent(r, frames[0]);
      NextFits(r, frames);
      assert Signals(r, frames) == [FirstSignal(o.calls)] + Signals(next, frames[1..]);
    } else {
      assert Signals(r, frames) == [];
    }
  }

  /** Successive frames signal consecutive values v, v + 1, v + 2, ...
      starting from the current slot's value. */
  lemma {:induction false} SignalsAreConsecutive(r: Resources, frames: seq<FrameEnv>)
    requires Paced(r.sync) && Fits(r, frames)
    ensures forall k :: 0 <= k < |Signals(r, frames)| ==>
      Signals(r, frames)[k] == r.sync.fenceValues[r.sync.frameIndex] + k
    decreases |frames|
  {
    if |frames| > 0 {
      var next := SignalsStep(r, frames);
      if Signals(r, frames) != [] {
        SignalsAreConsecutive(next, frames[1..]);
        Consecutive(r.sync.fenceValues[r.sync.frameIndex], Signals(next, frames[1..]));
      }
    }
  }

  /** The sample's state after a run of frames: each frame is rendered in
      turn and the run stops at the first frame that fails, with that
      frame's outcome. While the pacing invariant holds at the start, no
      frame of the run can deadlock, the run succeeds exactly when every
      frame signals, and in particular when no native call fails; a run
      that succeeds leaves the invariant in place. */
  function RunFrames(r: Resources, frames: seq<FrameEnv>): (o: Step)
    requires Paced(r.sync) && Fits(r, frames)
    ensures o.sample.Bound?
    ensures o.status != Deadlocked
    ensures o.status == Ok ==> Paced(o.sample.res.sync)
    ensures |o.sample.res.sync.fenceValues| == |r.sync.fenceValues|
    ensures r.sync.fence.completed <= o.sample.res.sync.fence.completed
    ensures |frames| == 0 ==> o == Step(Bound(r), Ok, [])
    ensures |frames| > 0 ==> Render(Bound(r), frames[0]).calls <= o.calls
    ensures |frames| > 0 && Render(Bound(r), frames[0]).status != Ok ==> o == Render(Bound(r), frames[0])
    ensures o.status == Ok <==> |Signals(r, frames)| == |frames|
    ensures (forall k :: 0 <= k < |frames| ==> NoFrameError(frames[k])) ==> o.status == Ok
    decreases |frames|
  {
    if |frames| == 0 then Step(Bound(r), Ok, [])
    else
      var first := Render(Bound(r), frames[0]);
      if first.status != Ok then first
      else
        var next := first.sample.res;
        NextFits(r, frames);
        var rest := RunFrames(next, frames[1..]);
        Step(rest.sample, rest.status, first.calls + rest.calls)
  }

  /** From a successful `bind_to_window`, with nothing submitted yet, every
      reset of every later run is safe, and the frames signal 1, 2, 3, ...
      in order. */
  lemma BindThenRun(env: BindEnv, frames: seq<FrameEnv>)
    requires env.frameIndex < FrameCount
    requires BindToWindow(Unbound, env).status == Ok
    requires Fits(BindToWindow(Unbound, env).sample.res, frames)
    ensures var r := BindToWindow(Unbound, env).sample.res;
            && (forall k :: 0 <= k < |Resets(r, Zeros(FrameCount), frames)| ==>
                  Safe(Resets(r, Zeros(FrameCount), frames)[k]))
            && (forall k :: 0 <= k < |Signals(r, frames)| ==> Signals(r, frames)[k] == k + 1)
  {
    var r := BindToWindow(Unbound, env).sample.res;
    assert Tracks(r, Zeros(FrameCount));
    ResetsAreSafe(r, Zeros(FrameCount), frames);
    SignalsAreConsecutive(r, frames);
  }
}
